=== FILE: README.md ===
# Account life cycle of the afriquizine backend, in Dafny

This project models the server side of the restaurant site's accounts and
bookings. It covers five areas:

- **Sign-up and sign-in** (`authController.js`): `check_user`, `register`,
  `login`, `forgotPassword` and `ResetPassword`.
- **Email verification and password recovery mail** (`emailController.js`):
  `sendVerificationEmail`, the transactional `verifyEmail` and
  `sendPasswordRecoveryEmail`.
- **Bookings** (`bookingController.js`): `createBooking`, including the
  username slug it derives for unknown guests, and `respondToBooking`.
- **CORS** (`server.js`): the `CLIENT_URLS` allowlist and the origin
  predicate handed to the `cors` middleware.

The database is one immutable value, `Store.Store`. It holds maps for the
`users`, `pending_users`, `email_verifications` and `password_resets` tables,
each keyed by email. For `users`, `email_verifications` and `password_resets`
their `ON CONFLICT (email)` clauses require this; for `pending_users` it is an
assumption (see "Left out"). It also
holds the `bookings` table keyed by serial id, `available_dates` keyed by
date, and the two id sequences.

Every handler is a pure function from the store, the request body, the
current time and its random inputs to an `Outcome`: the reply and the store
left behind.

- A knex transaction is a `Result`: on a thrown error the original store is
  kept.
- `.first()` and `rows[0]` on a query without `ORDER BY` may return any
  matching row, so `check_user` and `ResetPassword` return the set of
  possible results.
- SHA-256 and bcrypt are symbolic terms. A fingerprint is injective, and a
  bcrypt hash matches exactly the secret it was made from.
- `Math.random()`, `randomUUID`, `randomBytes`, the bcrypt salt, `NOW()` and
  the mail transport's success or failure are parameters.
- A request field on which the code calls a string method is a `Field`:
  absent, a string, or some other JSON value. This lets the model follow the
  `TypeError` such a value causes. A field only passed to SQL is an
  `Option<string>`.
- When an exception is thrown outside a handler's `try`, the handler itself
  sends no reply (`Reply.Unanswered`); what the framework does next is not
  modelled.

Module layout:

| module | file | what it holds |
|---|---|---|
| `Text` | `text.dfy` | `trim`, `toLowerCase`, `\s`, `length` and `split` |
| `Decimal` | `decimal.dfy` | number to decimal string conversion |
| `Wrappers` | `wrappers.dfy` | `Option` and `Result` |
| `Crypto` | `crypto.dfy` | fingerprints, bcrypt, blank passwords |
| `Http` | `http.dfy` | request fields, replies, message texts |
| `Store` | `store.dfy` | the database, its invariants (`Wellformed`), and what no handler undoes (`Evolves`) |
| `EmailController` | `email_controller.dfy` | the email controller |
| `AuthController` | `auth_controller.dfy` | the auth controller |
| `BookingController` | `booking_controller.dfy` | the booking controller |
| `Server` | `server.dfy` | CORS |
| `Lifecycle` | `lifecycle.dfy` | properties that chain several requests |
| `Findings` | `findings.dfy` | the defects listed under "Findings", as written and corrected |

Every handler that can write also states two more things in its contract. It keeps `Wellformed`:
user ids are distinct and below the sequence, booking ids are below theirs,
and every booking has an owner. And it satisfies `Evolves`: users rows and
their ids stay, `verified` is never cleared, bookings stay, and the
sequences never go back.

Where the code and its stated intent disagree, the model follows the code.
The disagreements are listed under "Findings".

## Model

| member | source | states |
|---|---|---|
| Text.TrimStartCuts | backend/controllers/authController.js:25-26 | the leading part `trim` removes is all white space and what remains is the rest of the string |
| Text.TrimEndCuts | backend/controllers/authController.js:25-26 | the trailing part `trim` removes is all white space and what remains is the start of the string |
| Text.TrimEmpty | backend/controllers/authController.js:70 | `s.trim()` is empty exactly when every character of `s` is ECMAScript white space, which is the test `!password.trim()` applies |
| Text.TrimIdempotent | backend/controllers/authController.js:25-26 | trimming an already trimmed email or name changes nothing |
| Text.LowerIdempotent | backend/controllers/authController.js:25 | lower-casing twice is lower-casing once |
| Text.LowerKeepsSpace | backend/controllers/bookingController.js:17 | `toLowerCase` neither creates nor removes white space, so lower-casing after the replacement keeps the slug free of it |
| Text.Utf16Length | backend/controllers/authController.js:74 | `password.length` counts UTF-16 code units: at least one and at most two per character |
| Text.Split | backend/server.js:13 | `split(',')` yields one more piece than there are commas |
| Text.SplitPiecesFree | backend/server.js:13 | no piece of `split(',')` contains a comma |
| Text.JoinSplit | backend/server.js:13 | splitting on commas loses nothing: joining the pieces with commas gives the input back |
| Decimal.ValueOfNumeral | backend/controllers/emailController.js:89 | `toString()` of a natural number reads back as that number |
| Decimal.NumeralLength | backend/controllers/emailController.js:89 | a number between 10^k and 10^(k+1) has k+1 decimal digits |
| Crypto.Hash | backend/controllers/authController.js:90 | what `bcrypt.hash(password, 10)` stores is a bcrypt hash, never the raw password, and `bcrypt.compare` matches it with exactly the password it was made from |
| Crypto.Compare | backend/controllers/authController.js:148 | `bcrypt.compare` throws on a NULL hash, and never matches a stored value that is not a bcrypt hash (such as the empty password of a booking guest) |
| Crypto.HashMatchesOnlyItsSecret | backend/controllers/authController.js:148-152 | a hash made from `p` matches `q` exactly when `q` is `p` |
| Store.InsertUser | backend/controllers/authController.js:98-105 | an insert adds exactly one users row under a new email, with the next id of the sequence, and keeps the invariants |
| Store.UpdateUser | backend/controllers/authController.js:238-241 | an update rewrites one existing row and keeps its id, everything else, and the invariants |
| EmailController.ValidEmailCompose | backend/controllers/emailController.js:82 | every string of the form a@b.c, with a, b and c non-empty and free of white space, passes `/^\S+@\S+\.\S+$/` |
| EmailController.ValidEmailParts | backend/controllers/emailController.js:82 | every string that passes the regular expression has that form |
| EmailController.VerificationCode | backend/controllers/emailController.js:89 | the code is six decimal digits without a leading zero, its value lies in [100000, 999999], and it is the floor of 100000 + 900000·r |
| EmailController.SendVerificationEmail | backend/controllers/emailController.js:80-117 | a missing or malformed email gives 400 with no write, and the email is not normalised. Otherwise exactly the row of that email is upserted, with the token's fingerprint, the six-digit code computed from the random draw, and an expiry ten minutes on. The reply is 200 even when delivery failed |
| EmailController.VerifyTransaction | backend/controllers/emailController.js:130-249 | a truthy non-string token throws inside the callback. Whatever the callback commits had a record of that email matching the token's fingerprint, or the code when no token was sent, and not yet expired, plus a pending row. An existing account keeps its id and name, takes the pending password and is verified, and the reply is "Email already verified" with no redirect. Otherwise the pending name and password become a verified account under the next id, and the reply redirects to "/login". The pending and verification rows of that email are deleted, and nothing else changes |
| EmailController.VerifyEmail | backend/controllers/emailController.js:120-260 | every request is answered. A missing email, or neither token nor code, gives 400. A truthy non-string token gives 500 "Error verifying email." with no change. Any answer other than 200 leaves the store exactly as it was. A 200 needs an unexpired record matching the request's token fingerprint, or its code when no token was sent. It is a committed verification as above, with the same row and the same reply |
| EmailController.VerifyFailures | backend/controllers/emailController.js:166-220 | with a matching record: no account and no pending row gives 404; a pending row with a blank password gives 500 "Pending user has no password saved."; an account with no pending row, or with a blank password, gives the generic 500. Each leaves the store unchanged |
| EmailController.VerifyMismatchRefused | backend/controllers/emailController.js:133-155 | a wrong token or code, another email's record, or an expiry not strictly after now gives 400 with no change |
| EmailController.SendPasswordRecoveryEmail | backend/controllers/emailController.js:264-299 | a malformed address or an unknown user is an error with no write. Otherwise the row of that email in password_resets is upserted with a fresh fingerprint and a ten-minute expiry, and the transport's outcome is passed on |
| AuthController.NormalizeEmailEmpty | backend/controllers/authController.js:25 | the normalised email is empty exactly when the input is all white space |
| AuthController.NormalizeEmailIdempotent | backend/controllers/authController.js:25 | normalising an already normalised email changes nothing |
| AuthController.Conflicts | backend/controllers/authController.js:29-46 | the answers are all 409s, and for each row that matches the email or the name, its 409 is among them. The email row gives "Email and Username already exist" when it also carries the name, otherwise "Email already exists". When only the name is taken, the one answer is "Username already exists" |
| AuthController.CheckUser | backend/controllers/authController.js:17-56 | a missing email or name gives 400. Otherwise the answer is `{exists: false}` exactly when no row has the normalised email or the trimmed name, and every answer is 409 when some row does. The store is never touched |
| AuthController.Register | backend/controllers/authController.js:59-116 | a falsy email, name or password gives 400 "Email, username, and password are required". A non-string email or name gives 500. A non-string or blank password gives 400 "Invalid password", and one shorter than six code units gives 400. 201 is answered exactly when every validation passes and neither the normalised email nor the trimmed name is in use; a taken email or name gives 400 "Email or Username already exists". On 201 exactly one unverified row is added with the bcrypt hash, and the reply carries only id, email and username. Every other answer leaves the store unchanged |
| AuthController.Login | backend/controllers/authController.js:127-175 | login never writes. Missing credentials give 400, and a non-string email gives 500. A non-string or blank password gives 400 "Invalid password". 404 is answered exactly for an unknown normalised email, and 401 exactly for a known one whose hash does not match; a stored password bcrypt cannot compare gives 500. 200 is answered exactly for a known one whose hash matches, and signs the row's id, email, username and flag, without the password, for seven days |
| AuthController.ForgotPassword | backend/controllers/authController.js:186-209 | a missing or non-string email throws and the handler itself sends no reply; an empty string gives 400. An unknown normalised email gives 404 with no write. For a known valid address the reset row is upserted with the new token's fingerprint and a ten-minute expiry, whatever the delivery, and no other row changes. The reply is 200 with the helper's success body when the mail was sent, or 400 "Email sending failed" when it was not. An invalid address gives 400 with no write |
| AuthController.ApplyReset | backend/controllers/authController.js:232-244 | the users row of the reset's email gets the hash of the new password, its reset row is deleted, and nothing else changes |
| AuthController.ResetOutcomes | backend/controllers/authController.js:232-246 | every possible outcome is a 200 whose store is the reset of one of the matching rows, and keeps the invariants |
| AuthController.ResetOutcomesCover | backend/controllers/authController.js:232-246 | conversely, each matching row can be the one `rows[0]` designates: its reset is among the possible outcomes |
| AuthController.ResetPassword | backend/controllers/authController.js:211-251 | a missing token or password gives 400. No unexpired row with the token's fingerprint gives 400 "Invalid or expired token." and no change. A 200 is possible exactly when such a row exists and both inputs are strings, and then it is the reset of one such row. Every other answer leaves the store unchanged |
| BookingController.Underscored | backend/controllers/bookingController.js:17 | replacing each white-space run by `_` leaves no white space and never lengthens the string |
| BookingController.UnderscoredNoSpace | backend/controllers/bookingController.js:17 | a string without white space is left alone by the replacement |
| BookingController.SlugNoSpace | backend/controllers/bookingController.js:17 | a guest's username never contains white space |
| BookingController.SlugEmpty | backend/controllers/bookingController.js:17 | the username is empty exactly when the name is all white space |
| BookingController.SlugOfWord | backend/controllers/bookingController.js:17 | a name without white space is only lower-cased |
| BookingController.SlugIdempotent | backend/controllers/bookingController.js:17 | the slug of a slug is itself |
| BookingController.EnsureUser | backend/controllers/bookingController.js:15-25 | a known email is used as is. An unknown one gets a row with the name's slug, the empty password and `verified = false`, unless the name is not a string, in which case `trim` throws |
| BookingController.Book | backend/controllers/bookingController.js:37-43 | one `pending` booking is written under the next booking id, and the date is marked booked, so it is no longer open |
| BookingController.Reserve | backend/controllers/bookingController.js:9-43 | missing fields give 400 with no write. The guest's users row is created before the date check and stays when the date is not open (400). An open date gets exactly one pending booking for that user, and the date is booked |
| BookingController.CreateBooking | backend/controllers/bookingController.js:6-61 | the handler never answers 201. It answers 500 "Error creating booking." with a changed store exactly when both booking writes were made; the same 500 with no write also answers an unknown email with a truthy non-string name, on which `name.trim()` throws |
| BookingController.RespondToBooking | backend/controllers/bookingController.js:80-89 | the status of booking `id` becomes the response, every other row and table is unchanged, and the reply is always the acknowledgement |
| Server.TrimAll | backend/server.js:13 | trimming keeps one entry per piece and never lengthens one |
| Server.AllowedOrigins | backend/server.js:12-14 | an unset or empty `CLIENT_URLS` gives the empty allowlist; otherwise there is one entry per comma-separated piece, empty pieces included |
| Server.AllowedOriginsEntries | backend/server.js:12-14 | entry i is the trimmed i-th piece: it has no comma and no white space at either end |
| Server.AllowedOriginsRoundTrip | backend/server.js:12-14 | for a value without white space, the allowlist is exactly the comma-separated pieces, and joining it gives the value back |
| Server.CorsUnconfigured | backend/server.js:12-24 | with `CLIENT_URLS` unset or empty, every request passes, whatever its origin |
| Server.TrimAllMember | backend/server.js:13 | a string is among the trimmed pieces exactly when it is the trim of one of them |
| Server.AllowedOriginsMember | backend/server.js:12-14 | an origin is in the allowlist exactly when it is the trimmed text of one of the comma-separated pieces of `CLIENT_URLS` |
| Server.CorsConfigured | backend/server.js:12-24 | with a non-empty `CLIENT_URLS`, a request passes exactly when it has no origin or its origin equals, verbatim, the trimmed text of one of the comma-separated pieces |
| Server.PaddedOriginRejected | backend/server.js:13-23 | an origin with white space at either end never passes a non-empty allowlist read from `CLIENT_URLS` |
| Lifecycle.RegisterTwiceRefused | backend/controllers/authController.js:79-86 | registering the same request again is refused with 400 and changes nothing |
| Lifecycle.RegisterThenCheckUser | backend/controllers/authController.js:29-38 | after a registration, `check_user` with the same email and name answers only 409, including "Email and Username already exist" |
| Lifecycle.LoginAfterRegister | backend/controllers/authController.js:90-165 | the credentials just registered log in, and the session names the new, unverified account |
| Lifecycle.WrongPasswordAfterRegister | backend/controllers/authController.js:146-152 | a wrong, non-blank password for a registered account gives 401, never 404 |
| Lifecycle.ReissueSupersedes | backend/controllers/emailController.js:88-98 | issuing a second verification makes the earlier token stop matching, and the earlier code too unless the new draw gives the same code. The new token and the new code match until the new expiry |
| Lifecycle.IssueThenVerifyByCode | backend/controllers/emailController.js:88-248 | the code mailed for a pending sign-up, entered before it expires, promotes the sign-up to a verified account holding the pending password |
| Lifecycle.IssueThenVerifyByToken | backend/controllers/emailController.js:88-248 | the token of the mailed link does the same |
| Lifecycle.TokenTakesPrecedence | backend/controllers/emailController.js:133-145 | with a token in the request, the code has no influence on the outcome |
| Lifecycle.ExpiredRecordRefused | backend/controllers/emailController.js:133-155 | a record whose expiry is not strictly after now gives 400 and no change, for a string token or, without a token, for a code |
| Lifecycle.VerifyReplayRefused | backend/controllers/emailController.js:242-243 | replaying a request that verified an account gives 400, because its record was deleted |
| Lifecycle.PromotePending | backend/controllers/emailController.js:222-248 | a pending-only account with a usable password becomes a verified users row with the pending name and password, and the client is redirected to `/login` |
| Lifecycle.MergePending | backend/controllers/emailController.js:166-202 | as written, a matching record, a pending row and a non-blank password on the existing account always commit the merge, whatever the pending password is: the account keeps its id and name, takes the pending password and is verified, and the reply is "Email already verified" with no redirect |
| Lifecycle.RecoveryTokenResets | backend/controllers/authController.js:186-245 | the token mailed by `forgotPassword` resets the password while it is unexpired |
| Lifecycle.RecoveryIssued | backend/controllers/authController.js:186-204 | `forgotPassword` for a valid, known address stores the fingerprint of the mailed token with a ten-minute expiry |
| Lifecycle.RecoveryTokenWindow | backend/controllers/authController.js:186-230 | the token `forgotPassword` mails selects the account's reset row exactly until ten minutes after it was issued |
| Lifecycle.RecoverySupersedes | backend/controllers/emailController.js:279-284 | a second recovery request makes the first token stop matching |
| Lifecycle.ResetSingleUse | backend/controllers/authController.js:243-244 | a reset token works once: replaying it gives 400 and changes nothing |
| Lifecycle.ResetHitsOnlyItsRow | backend/controllers/authController.js:223-244 | with distinct fingerprints, every outcome of a reset with an unexpired token answers 200 and resets exactly that token's row |
| Lifecycle.LoginAfterReset | backend/controllers/authController.js:235-241 | after a reset with an unexpired token, whichever row was picked, the new password logs in and any other gives 401 |
| Lifecycle.BookingGuestCannotLogIn | backend/controllers/bookingController.js:17-21 | an account created by a booking has the empty password, so every non-blank string password gives 401 |
| Lifecycle.BookingGuestCannotVerify | backend/controllers/emailController.js:186 | as written, an account that a booking has just created cannot be verified right after its booking: the blank password reaches the undeclared variable, and the verification aborts with 500 |
| Lifecycle.DateBookedOnce | backend/controllers/bookingController.js:28-43 | once a request has booked a date, any later request for it is refused and writes no booking |
| Findings.VerifyWithoutPendingAborts | backend/controllers/emailController.js:166-175 | as written, an account with no pending row cannot be verified: the merge reads the missing pending user and everything rolls back with 500 |
| Findings.RegisteredUserCannotVerify | backend/controllers/emailController.js:166-175 | as written, `register` followed by `sendVerificationEmail` and `verifyEmail` with the issued token ends in 500 |
| Findings.SyncedPassword | backend/controllers/emailController.js:185-190 | corrected password choice: an account keeps a password that is not blank, and takes the pending row's usable password only when its own is blank |
| Findings.MergeExisting | backend/controllers/emailController.js:166-202 | corrected existing-account branch: the account ends verified with its id and name. It keeps a working password, takes the pending password only when its own is blank, and its pending and verification rows are deleted |
| Findings.VerifyTransactionIntended | backend/controllers/emailController.js:130-249 | corrected transaction: a matching record of an existing account always commits the merge; every other case is as written |
| Findings.VerifyEmailIntended | backend/controllers/emailController.js:120-260 | corrected handler: a 200 leaves the account verified and its record deleted, and any other answer changes nothing |
| Findings.VerifyExistingSucceeds | backend/controllers/emailController.js:166-202 | corrected: an account with a working password and a matching record is verified, and keeps its password |
| Findings.LoginAfterVerify | backend/controllers/emailController.js:166-202 | corrected: whoever could log in before verifying still can after |
| Findings.RegisteredUserVerifies | backend/controllers/emailController.js:166-202 | corrected: `register`, issue, verify answers 200, and the registered password still logs in |
| Findings.MergeOverwritesPassword | backend/controllers/emailController.js:176-182 | as written, verifying an account that also has a pending row replaces its working password with the pending row's, so the old password stops logging in |
| Findings.MergeKeepsPassword | backend/controllers/emailController.js:176-190 | corrected: a working password survives verification |
| Findings.CreateBookingIntended | backend/controllers/bookingController.js:6-61 | corrected handler: 201 "Booking created successfully." exactly when the booking was written, with the pending booking for that date and the date booked |
| Findings.BookingReportedAsFailed | backend/controllers/bookingController.js:37-60 | as written, a booking on an open date is stored and its date marked taken, yet the reply is 500 "Error creating booking." |
| Findings.BookingConfirmed | backend/controllers/bookingController.js:53-55 | corrected: the same request is answered 201 |
| Findings.ForgotPasswordIntended | backend/controllers/authController.js:186-193 | corrected handler: a missing or falsy email gives 400 "Email is required."; every other request is handled as written |
| Findings.ForgotPasswordMissingEmailUnanswered | backend/controllers/authController.js:186-193 | as written, for a body without an email the handler itself sends no reply, never the 400 |
| Findings.ForgotPasswordMissingEmailAnswered | backend/controllers/authController.js:191-193 | corrected: a missing, empty or falsy email is answered 400 "Email is required." with no write |

## Left out

- Mail transport: nodemailer, `sendAdminEmail` and the email-side `respondToBooking` are left out. `sendEmail` is reduced to a `Delivery` of `Sent` or `Failed`, and the mail bodies are not modelled.
- `getBookings`, `logout`'s cookie handling, the keep-alive timer, Express routing, static files, the session cookie set by `login`, and the gallery and upload controllers: these are I/O with no logic to state.
- Concurrency: a knex transaction is atomic here, and `ON CONFLICT` races are not modelled. Inside `verifyEmail` the reply is sent before the callback returns; that ordering is not modelled.
- Schema constraints other than the email keys (for example a unique username), and the `created_at` and `role` columns, are not known and not modelled.
- Driver coercion is not modelled: an email, code or date that is not a string but is passed to SQL is taken as a string.
- Exact serial id values: ids come from counters in the store. The bookings row returned to the client is not modelled.
- SQL NULL as a status: `RespondToBooking` takes the response as a string, so an absent `response` is not modelled. A non-numeric `:id` (500 from the database) is also out: the id is a natural number.
- `Math.random()` is a real number in [0, 1). The rounding of floating-point arithmetic is not modelled.
- Text.Lower: lower-cases ASCII letters only, because `toLowerCase`'s full Unicode case mapping is out of scope. Email normalisation therefore agrees with the code on ASCII addresses only.
- Crypto.Compare: bcrypt's truncation of secrets to 72 bytes is not modelled. Two passwords that agree on their first 72 bytes are treated as different.
- Crypto.Hash: fingerprints and bcrypt hashes are collision-free by construction, and the hash text (`$2a$…`) is not modelled.
- Server.AllowedOrigins: its contract gives only the number of entries; what each entry is, is stated by `Server.AllowedOriginsEntries` and `Server.AllowedOriginsRoundTrip`.
- EmailController.VerifyEmail: its contract states the 400s, the unchanged store on every failure and what a 200 commits. The individual error codes of a matching record are stated by `EmailController.VerifyFailures`.
- BookingController.CreateBooking: its contract states that 201 is never answered and when 500 follows the writes. The writes themselves are stated by `BookingController.Reserve`.
- Lifecycle.ResetSingleUse, Lifecycle.ResetHitsOnlyItsRow and Lifecycle.LoginAfterReset: assume that no two reset rows share a fingerprint (`DistinctResetTokens`). Tokens are 32 random bytes and collisions are not modelled.
- Database failures: every query is taken to succeed, so the catch-all 500s never follow a database error. The partial states that a failure between two writes outside a transaction would leave are not modelled. Examples are a password updated with its reset row kept (backend/controllers/authController.js:238-244), and a booking inserted with its date left open (backend/controllers/bookingController.js:37-43).
- Logging: console output is not modelled, including the plaintext password that `register` writes to the log (backend/controllers/authController.js:89).
- What follows an exception that escapes a handler: the handler itself sends no reply (`Reply.Unanswered`). Whether the framework then answers 500 or the process stops depends on Express and Node versions that are not part of this model.
- The pending rows `verifyEmail` reads are part of the initial store, because no handler in this code writes `pending_users`.
- `pending_users` is modelled as a map keyed by email. The source declares no unique key for it, so its `.first()` (backend/controllers/emailController.js:159) is deterministic only under this assumption; several pending rows for one email are not modelled.

## Findings

| source | as written | input that shows it | evidently intended | confidence | as-written member | corrected member |
|---|---|---|---|---|---|---|
| backend/controllers/emailController.js:166-175 | the existing-account branch builds its insert from `pendingUser.email` while `pendingUser` may be undefined, so the transaction throws and rolls back with 500 | an account made by `register` (which writes `users`, never `pending_users`), then `sendVerificationEmail`, then `verifyEmail` with the token just issued | the branch's own log line: make sure `verified = true` and sync the password if missing, with or without a pending row | high (not executed) | Findings.RegisteredUserCannotVerify | Findings.RegisteredUserVerifies |
| backend/controllers/emailController.js:176-182 | the merge overwrites an existing account's password with the pending row's, whatever the account held | an account with the hash of "old" and a pending row with the hash of "new"; after verification, "old" no longer logs in | replace the password only when the account has none (the branch's log line and its lines 185-190) | medium (not executed) | Findings.MergeOverwritesPassword | Findings.MergeKeepsPassword |
| backend/controllers/bookingController.js:53 | `sendEmail` is not declared in this file, so every booking on an open date throws after both writes and is answered 500 | any request with a name, a known email and an open date | the 201 "Booking created successfully." of line 55 | high (not executed) | Findings.BookingReportedAsFailed | Findings.BookingConfirmed |
| backend/controllers/authController.js:188-193 | `email.trim()` runs before the missing-email check and outside `try`, so for a body without an email the handler throws and itself sends no reply | a request body `{}` | the 400 "Email is required." of line 192 | high (not executed) | Findings.ForgotPasswordMissingEmailUnanswered | Findings.ForgotPasswordMissingEmailAnswered |

=== FILE: auth_controller.dfy ===
/** backend/controllers/authController.js: the availability check,
    registration, login, and the two halves of password recovery. */
module AuthController {

  import opened Wrappers
  import opened Text
  import opened Crypto
  import opened Http
  import opened Store
  import EmailController

  /** `email.trim().toLowerCase()`. */
  function NormalizeEmail(s: string): (e: string)
    ensures |e| <= |s|
  {
    Lower(Trim(s))
  }

  /** Normalisation empties exactly the all-white-space strings. */
  lemma NormalizeEmailEmpty(s: string)
    ensures NormalizeEmail(s) == [] <==> AllSpace(s)
  {
    TrimEmpty(s);
  }

  /** Normalising twice is normalising once. */
  lemma NormalizeEmailIdempotent(s: string)
    ensures NormalizeEmail(NormalizeEmail(s)) == NormalizeEmail(s)
  {
    var t := Trim(s);
    var l := Lower(t);
    if l != [] {
      assert !IsSpace(l[0]) && !IsSpace(l[|l| - 1]);
      assert TrimStart(l) == l;
      assert TrimEnd(l) == l;
    }
    LowerIdempotent(t);
  }

  /** Some users row has the email as its key or the name as its username:
      what `where("email", email).orWhere("username", name)` finds. */
  predicate Taken(st: Store, email: string, name: string)
  {
    exists k | k in st.users :: k == email || st.users[k].username == name
  }

  /** The 409 answer `check_user` gives for the row `.first()` returned. */
  function Conflict(emailHit: bool, nameHit: bool): Reply
  {
    if emailHit && nameHit then Respond(409, Message(EmailAndUsernameExist))
    else if emailHit then Respond(409, Message(EmailExists))
    else Respond(409, Message(UsernameExists))
  }

  /** The 409 answers possible when some row matches: one per matching row
      `.first()` may return. */
  function Conflicts(st: Store, e: string, n: string): (replies: set<Reply>)
    requires Taken(st, e, n)
    ensures replies != {}
    ensures forall r | r in replies :: Answers(r, 409)
    ensures e in st.users ==> Conflict(true, st.users[e].username == n) in replies
    ensures e !in st.users ==> replies == {Conflict(false, true)}
    ensures forall k | k in st.users && (k == e || st.users[k].username == n) ::
      Conflict(k == e, st.users[k].username == n) in replies
  {
    var replies := set k | k in st.users && (k == e || st.users[k].username == n) :: Conflict(k == e, st.users[k].username == n);
    var k0 :| k0 in st.users && (k0 == e || st.users[k0].username == n);
    assert Conflict(k0 == e, st.users[k0].username == n) in replies;
    assert e in st.users ==> Conflict(true, st.users[e].username == n) in replies;
    replies
  }

  const Available := Respond(200, Availability(false))
  const UsernameTaken := Respond(409, Message(UsernameExists))

  datatype CheckUserRequest = CheckUserRequest(email: Field, name: Field)

  /** `check_user`. `.first()` without an ORDER BY may return any matching
      row, so the result is the set of replies the handler can give; it is
      computed from the store without changing it. */
  function CheckUser(st: Store, req: CheckUserRequest): (replies: set<Reply>)
    ensures replies != {}
    ensures forall r | r in replies :: r.Respond?
    ensures !Truthy(req.email) || !Truthy(req.name) ==>
      replies == {Respond(400, Message(EmailAndUsernameRequired))}
    ensures Truthy(req.email) && Truthy(req.name) && (!req.email.Str? || !req.name.Str?) ==>
      replies == {Respond(500, Message(InternalServerError))}
    ensures Truthy(req.email) && Truthy(req.name) && req.email.Str? && req.name.Str? ==>
      var e := NormalizeEmail(req.email.text);
      var n := Trim(req.name.text);
      && (replies == {Available} <==> !Taken(st, e, n))
      && (Taken(st, e, n) ==> forall r | r in replies :: Answers(r, 409))
      && (e in st.users ==>
            Respond(409, Message(EmailExists)) in replies || Respond(409, Message(EmailAndUsernameExist)) in replies)
      && (e in st.users && st.users[e].username == n ==>
            Respond(409, Message(EmailAndUsernameExist)) in replies)
      && (e !in st.users ==> forall r | r in replies :: r == UsernameTaken || r == Available)
  {
    if !Truthy(req.email) || !Truthy(req.name) then
      {Respond(400, Message(EmailAndUsernameRequired))}
    else if !req.email.Str? || !req.name.Str? then
      {Respond(500, Message(InternalServerError))}
    else
      var e := NormalizeEmail(req.email.text);
      var n := Trim(req.name.text);
      if Taken(st, e, n) then
        Conflicts(st, e, n)
      else
        {Available}
  }

  datatype RegisterRequest = RegisterRequest(email: Field, name: Field, password: Field)

  /** The request passes every validation of `register` (lines 64-76). */
  predicate Acceptable(req: RegisterRequest)
  {
    && req.email.Str? && req.email.text != []
    && req.name.Str? && req.name.text != []
    && req.password.Str? && Trim(req.password.text) != []
    && Utf16Length(req.password.text) >= 6
  }

  /** The requests `register` answers with 201: valid, and with an email
      and a name nobody uses yet. */
  predicate Admits(st: Store, req: RegisterRequest)
  {
    Acceptable(req) && !Taken(st, NormalizeEmail(req.email.text), Trim(req.name.text))
  }

  /** `register`: validates, refuses an email or username already in use,
      and inserts an unverified users row holding the bcrypt hash. */
  function Register(st: Store, req: RegisterRequest, salt: nat): (o: Outcome)
    ensures o.reply.Respond?
    ensures !Answers(o.reply, 201) ==> o.store == st
    ensures !Truthy(req.email) || !Truthy(req.name) || !Truthy(req.password) ==>
      o == Outcome(Respond(400, Message(RegisterFieldsRequired)), st)
    ensures Truthy(req.email) && Truthy(req.name) && Truthy(req.password) && (!req.email.Str? || !req.name.Str?) ==>
      o == Outcome(Respond(500, Message(InternalServerErrorCapitalised)), st)
    ensures Truthy(req.email) && Truthy(req.name) && Truthy(req.password) && req.email.Str? && req.name.Str? &&
            (!req.password.Str? || Trim(req.password.text) == []) ==>
      o == Outcome(Respond(400, Message(InvalidPassword)), st)
    ensures Answers(o.reply, 201) <==>
      Acceptable(req) && !Taken(st, NormalizeEmail(req.email.text), Trim(req.name.text))
    ensures Acceptable(req) && Taken(st, NormalizeEmail(req.email.text), Trim(req.name.text)) ==>
      o.reply == Respond(400, Message(EmailOrUsernameExists))
    ensures Truthy(req.email) && Truthy(req.name) && Truthy(req.password) && req.email.Str? && req.name.Str? &&
            req.password.Str? && Trim(req.password.text) != [] && Utf16Length(req.password.text) < 6 ==>
      o.reply == Respond(400, Message(PasswordTooShort))
    ensures Answers(o.reply, 201) ==>
      var e := NormalizeEmail(req.email.text);
      var n := Trim(req.name.text);
      && e !in st.users
      && o.store.users == st.users[e := User(st.nextUserId, n, Hash(req.password.text, salt), false)]
      && Compare(req.password.text, o.store.users[e].password) == Match
      && o.reply.body == Registered(UserRegistered, Summary(st.nextUserId, e, n))
      && o.store == st.(users := o.store.users, nextUserId := st.nextUserId + 1)
    ensures Wellformed(st) ==> Wellformed(o.store)
    ensures Evolves(st, o.store)
  {
    if !Truthy(req.email) || !Truthy(req.name) || !Truthy(req.password) then
      Outcome(Respond(400, Message(RegisterFieldsRequired)), st)
    else if !req.email.Str? || !req.name.Str? then
      Outcome(Respond(500, Message(InternalServerErrorCapitalised)), st)
    else if !req.password.Str? || Trim(req.password.text) == [] then
      Outcome(Respond(400, Message(InvalidPassword)), st)
    else if Utf16Length(req.password.text) < 6 then
      Outcome(Respond(400, Message(PasswordTooShort)), st)
    else
      var e := NormalizeEmail(req.email.text);
      var n := Trim(req.name.text);
      if Taken(st, e, n) then
        Outcome(Respond(400, Message(EmailOrUsernameExists)), st)
      else
        var st' := InsertUser(st, e, n, Hash(req.password.text, salt), false);
        Outcome(Respond(201, Registered(UserRegistered, Summary(st.nextUserId, e, n))), st')
  }

  /** Seven days, the `expiresIn: "7d"` of the session token, in seconds. */
  const SessionLifetime: nat := 7 * 24 * 60 * 60

  datatype LoginRequest = LoginRequest(email: Field, password: Field)

  /** `login`: never writes; distinguishes an unknown email (404) from a
      wrong password (401) and signs the row without its password. */
  function Login(st: Store, req: LoginRequest): (o: Outcome)
    ensures o.store == st
    ensures o.reply.Respond?
    ensures !Truthy(req.email) || !Truthy(req.password) ==>
      o.reply == Respond(400, Message(CredentialsRequired))
    ensures Truthy(req.email) && Truthy(req.password) && !req.email.Str? ==>
      o.reply == Respond(500, Message(InternalServerError))
    ensures Truthy(req.email) && Truthy(req.password) && req.email.Str? &&
            (!req.password.Str? || Trim(req.password.text) == []) ==>
      o.reply == Respond(400, Message(InvalidPassword))
    ensures req.email.Str? && req.email.text != [] && req.password.Str? && Trim(req.password.text) != [] &&
            NormalizeEmail(req.email.text) in st.users &&
            Compare(req.password.text, st.users[NormalizeEmail(req.email.text)].password) == IllegalArguments ==>
      o.reply == Respond(500, Message(InternalServerError))
    ensures Answers(o.reply, 404) <==>
      && req.email.Str? && req.email.text != []
      && req.password.Str? && Trim(req.password.text) != []
      && NormalizeEmail(req.email.text) !in st.users
    ensures Answers(o.reply, 401) <==>
      && req.email.Str? && req.email.text != []
      && req.password.Str? && Trim(req.password.text) != []
      && NormalizeEmail(req.email.text) in st.users
      && Compare(req.password.text, st.users[NormalizeEmail(req.email.text)].password) == Mismatch
    ensures Answers(o.reply, 200) <==>
      && req.email.Str? && req.email.text != []
      && req.password.Str? && Trim(req.password.text) != []
      && NormalizeEmail(req.email.text) in st.users
      && Compare(req.password.text, st.users[NormalizeEmail(req.email.text)].password) == Match
    ensures Answers(o.reply, 200) ==>
      var e := NormalizeEmail(req.email.text);
      o.reply.body == LoggedIn(LoginSuccessful,
           Jwt(Claims(st.users[e].id, e, st.users[e].username, st.users[e].verified), SessionLifetime))
  {
    if !Truthy(req.email) || !Truthy(req.password) then
      Outcome(Respond(400, Message(CredentialsRequired)), st)
    else if !req.email.Str? then
      Outcome(Respond(500, Message(InternalServerError)), st)
    else if !req.password.Str? || Trim(req.password.text) == [] then
      Outcome(Respond(400, Message(InvalidPassword)), st)
    else
      var e := NormalizeEmail(req.email.text);
      if e !in st.users then
        Outcome(Respond(404, Message(EmailNotFound)), st)
      else
        var user := st.users[e];
        match Compare(req.password.text, user.password)
        case IllegalArguments => Outcome(Respond(500, Message(InternalServerError)), st)
        case Mismatch => Outcome(Respond(401, Message(InvalidPassword)), st)
        case Match =>
          var claims := Claims(user.id, e, user.username, user.verified);
          Outcome(Respond(200, LoggedIn(LoginSuccessful, Jwt(claims, SessionLifetime))), st)
  }

  /** `forgotPassword`. The email is trimmed before the try block and before
      the check for a missing email, so a missing or non-string email throws
      out of the handler, which itself sends no reply. */
  function ForgotPassword(st: Store, email: Field, now: int, token: string, delivery: Delivery): (o: Outcome)
    ensures !email.Str? ==> o == Outcome(Unanswered, st)
    ensures email == Str([]) ==> o == Outcome(Respond(400, Message(EmailRequired)), st)
    ensures email.Str? && email.text != [] && NormalizeEmail(email.text) !in st.users ==>
      o == Outcome(Respond(404, Message(UserNotFound)), st)
    ensures Answers(o.reply, 200) ==>
      && email.Str? && delivery == Sent
      && var e := NormalizeEmail(email.text);
      && e in st.users && EmailController.ValidEmail(e)
      && e in o.store.resets && o.store.resets[e].token == Sha256(token)
      && o.store.resets[e].expiresAt == now + EmailController.TokenLifetime
      && SameExcept(st.resets, o.store.resets, e)
      && o.store == st.(resets := o.store.resets)
    ensures email.Str? && email.text != [] && NormalizeEmail(email.text) in st.users ==>
      var e := NormalizeEmail(email.text);
      && (EmailController.ValidEmail(e) ==>
            && e in o.store.resets
            && o.store.resets[e] == PasswordReset(Sha256(token), now + EmailController.TokenLifetime)
            && SameExcept(st.resets, o.store.resets, e)
            && o.store == st.(resets := o.store.resets))
      && (EmailController.ValidEmail(e) && delivery == Sent ==> o.reply == Respond(200, Succeeded))
      && (EmailController.ValidEmail(e) && delivery == Failed ==>
            o.reply == Respond(400, Message(EmailSendingFailed)))
      && (!EmailController.ValidEmail(e) ==>
            o == Outcome(Respond(400, Message(InvalidEmailFormat)), st))
    ensures Wellformed(st) ==> Wellformed(o.store)
    ensures Evolves(st, o.store)
  {
    if !email.Str? then Outcome(Unanswered, st)
    else
      if email.text == [] then Outcome(Respond(400, Message(EmailRequired)), st)
      else
      var e := NormalizeEmail(email.text);
      if e !in st.users then Outcome(Respond(404, Message(UserNotFound)), st)
      else
        var r := EmailController.SendPasswordRecoveryEmail(st, e, now, token, delivery);
        match r.result
        case Emailed => Outcome(Respond(200, Succeeded), r.store)
        case RecoveryError(m) => Outcome(Respond(400, Message(m)), r.store)
  }

  datatype ResetRequest = ResetRequest(token: Field, password: Field)

  /** Emails whose reset row carries fingerprint `d` and has not expired:
      the rows `WHERE token = $1 AND expires_at > NOW()` returns. */
  function ResetCandidates(st: Store, d: Digest, now: int): set<string>
  {
    set e | e in st.resets && st.resets[e].token == d && st.resets[e].expiresAt > now
  }

  /** What a successful reset does to the store: the reset row of `e` is
      gone, the users row of `e` (if any) now holds a hash matching `p` and
      is otherwise untouched, and nothing else changed. */
  ghost predicate ResetEffect(st: Store, st': Store, e: string, p: string)
  {
    && e !in st'.resets && SameExcept(st.resets, st'.resets, e)
    && (e in st.users <==> e in st'.users)
    && (e in st.users ==>
          && Compare(p, st'.users[e].password) == Match
          && st'.users[e] == st.users[e].(password := st'.users[e].password))
    && SameExcept(st.users, st'.users, e)
    && st' == st.(users := st'.users, resets := st'.resets)
  }

  /** The two writes of a successful reset for the row of `e`. */
  function ApplyReset(st: Store, e: string, p: string, salt: nat): (st': Store)
    ensures ResetEffect(st, st', e, p)
    ensures Wellformed(st) ==> Wellformed(st')
    ensures Evolves(st, st')
  {
    var st1 := if e in st.users then UpdateUser(st, e, st.users[e].(password := Hash(p, salt))) else st;
    st1.(resets := st.resets - {e})
  }

  /** The outcomes of a reset whose token matched the rows of `c`: one per
      row `rows[0]` may designate. */
  function ResetOutcomes(st: Store, c: set<string>, p: string, salt: nat): (outcomes: set<Outcome>)
    requires c != {}
    ensures outcomes != {}
    ensures forall o | o in outcomes :: o.reply == ResetDone
    ensures forall o | o in outcomes :: exists e | e in c :: ResetEffect(st, o.store, e, p)
    ensures forall o | o in outcomes :: Wellformed(st) ==> Wellformed(o.store)
    ensures forall o | o in outcomes :: Evolves(st, o.store)
  {
    var outcomes := set e | e in c :: Outcome(ResetDone, ApplyReset(st, e, p, salt));
    var e0 :| e0 in c;
    assert Outcome(ResetDone, ApplyReset(st, e0, p, salt)) in outcomes;
    outcomes
  }

  /** Conversely, every matching row can be the one `rows[0]` designates:
      its reset is among the possible outcomes. */
  lemma ResetOutcomesCover(st: Store, c: set<string>, p: string, salt: nat, e: string)
    requires e in c
    ensures exists o | o in ResetOutcomes(st, c, p, salt) :: ResetEffect(st, o.store, e, p)
  {
    assert Outcome(ResetDone, ApplyReset(st, e, p, salt)) in ResetOutcomes(st, c, p, salt);
  }

  const ResetDone := Respond(200, Message(PasswordResetDone))
  const ResetRejected := Respond(400, Message(InvalidOrExpiredToken))

  /** `ResetPassword`. `rows[0]` of a query without ORDER BY may be any
      matching row, so the result is the set of possible outcomes. */
  function ResetPassword(st: Store, req: ResetRequest, now: int, salt: nat): (outcomes: set<Outcome>)
    ensures outcomes != {}
    ensures forall o | o in outcomes :: o.reply.Respond?
    ensures forall o | o in outcomes :: !Answers(o.reply, 200) ==> o.store == st
    ensures !Truthy(req.token) || !Truthy(req.password) ==>
      outcomes == {Outcome(Respond(400, Message(MissingTokenOrPassword)), st)}
    ensures Truthy(req.token) && Truthy(req.password) && req.token.Str? &&
            ResetCandidates(st, Sha256(req.token.text), now) == {} ==>
      outcomes == {Outcome(ResetRejected, st)}
    ensures (exists o | o in outcomes :: Answers(o.reply, 200)) <==>
      && Truthy(req.token) && Truthy(req.password) && req.token.Str? && req.password.Str?
      && ResetCandidates(st, Sha256(req.token.text), now) != {}
    ensures forall o | o in outcomes && Answers(o.reply, 200) ::
      && req.token.Str? && req.password.Str?
      && exists e | e in ResetCandidates(st, Sha256(req.token.text), now) ::
           ResetEffect(st, o.store, e, req.password.text)
    ensures forall o | o in outcomes :: Wellformed(st) ==> Wellformed(o.store)
    ensures forall o | o in outcomes :: Evolves(st, o.store)
  {
    if !Truthy(req.token) || !Truthy(req.password) then
      {Outcome(Respond(400, Message(MissingTokenOrPassword)), st)}
    else if !req.token.Str? then
      // createHash().update() throws on a non-string token
      {Outcome(Respond(500, Message(ServerError)), st)}
    else
      var c := ResetCandidates(st, Sha256(req.token.text), now);
      if c == {} then {Outcome(ResetRejected, st)}
      // bcrypt.hash throws on a non-string password before any write
      else if !req.password.Str? then {Outcome(Respond(500, Message(ServerError)), st)}
      else
        ResetOutcomes(st, c, req.password.text, salt)
  }
}

=== FILE: booking_controller.dfy ===
/** `createBooking` and `respondToBooking`: a booking claims an available
    date for a user, creating a passwordless users row for an unknown email
    on the way. */
module BookingController {

  import opened Wrappers
  import opened Text
  import opened Crypto
  import opened Http
  import opened Store

  /** `s.replace(/\s+/g, "_")`: every maximal run of white space becomes a
      single underscore. */
  function Underscored(s: string): (r: string)
    ensures NoSpace(r)
    ensures |r| <= |s|
    decreases |s|
  {
    if s == [] then []
    else if IsSpace(s[0]) then
      var rest := TrimStart(s);
      assert |rest| < |s|;
      ['_'] + Underscored(rest)
    else [s[0]] + Underscored(s[1..])
  }

  /** A string without white space has no run to replace. */
  lemma {:induction false} UnderscoredNoSpace(s: string)
    requires NoSpace(s)
    ensures Underscored(s) == s
    decreases |s|
  {
    if s != [] {
      UnderscoredNoSpace(s[1..]);
      assert s == [s[0]] + s[1..];
    }
  }

  /** Replacing runs empties exactly the empty string. */
  lemma UnderscoredEmpty(s: string)
    ensures Underscored(s) == [] <==> s == []
  {
  }

  /** The username `createBooking` derives from a display name:
      `name.trim().replace(/\s+/g, "_").toLowerCase()`. */
  function Slug(name: string): (u: string)
  {
    Lower(Underscored(Trim(name)))
  }

  /** A slug never contains white space. */
  lemma SlugNoSpace(name: string)
    ensures NoSpace(Slug(name))
  {
    LowerKeepsSpace(Underscored(Trim(name)));
  }

  /** The slug is empty exactly when the name is all white space. */
  lemma SlugEmpty(name: string)
    ensures Slug(name) == [] <==> AllSpace(name)
  {
    TrimEmpty(name);
    UnderscoredEmpty(Trim(name));
  }

  /** A name that has no white space is only lower-cased. */
  lemma SlugOfWord(name: string)
    requires NoSpace(name)
    ensures Slug(name) == Lower(name)
  {
    TrimNoSpace(name);
    UnderscoredNoSpace(name);
  }

  /** A slug is its own slug. */
  lemma SlugIdempotent(name: string)
    ensures Slug(Slug(name)) == Slug(name)
  {
    var u := Slug(name);
    SlugNoSpace(name);
    SlugOfWord(u);
    LowerIdempotent(Underscored(Trim(name)));
  }

  /** `SELECT * FROM available_dates WHERE date = $1 AND booked = false`
      returns a row. */
  predicate Open(st: Store, date: string)
  {
    date in st.dates && !st.dates[date]
  }

  /** The store in which `st.users[email]` exists, or nothing when a users
      row must be created from a non-string name and `name.trim()` throws.
      An unknown email gets a users row with the slug of the name, the empty
      password and `verified = false`. */
  function EnsureUser(st: Store, email: string, name: Field): (r: Option<Store>)
    requires Truthy(name)
    ensures r.Some? <==> email in st.users || name.Str?
    ensures email in st.users ==> r == Some(st)
    ensures email !in st.users && name.Str? ==>
      && r.value.users == st.users[email := User(st.nextUserId, Slug(name.text), Plain(""), false)]
      && r.value == st.(users := r.value.users, nextUserId := st.nextUserId + 1)
    ensures r.Some? ==> email in r.value.users && (Wellformed(st) ==> Wellformed(r.value)) && Evolves(st, r.value)
  {
    if email in st.users then
      EvolvesReflexive(st);
      Some(st)
    else if !name.Str? then None
    else Some(InsertUser(st, email, Slug(name.text), Plain(""), false))
  }

  datatype BookingRequest = BookingRequest(name: Field, email: Option<string>, date: Option<string>)

  /** The two writes of a booking on an open date: the `pending` bookings row
      under the next booking id and the date's `booked` flag. */
  function Book(st: Store, userId: nat, date: string): (st': Store)
    ensures st'.bookings == st.bookings[st.nextBookingId := Booking(userId, date, "pending")]
    ensures st'.dates == st.dates[date := true]
    ensures st' == st.(bookings := st'.bookings, dates := st'.dates, nextBookingId := st.nextBookingId + 1)
    ensures !Open(st', date)
    ensures Evolves(st, st')
    ensures Wellformed(st) && (exists e | e in st.users :: st.users[e].id == userId) ==> Wellformed(st')
  {
    st.(bookings := st.bookings[st.nextBookingId := Booking(userId, date, "pending")],
        dates := st.dates[date := true],
        nextBookingId := st.nextBookingId + 1)
  }

  /** How far `createBooking` gets before its confirmation step: stopped
      with a reply, or with both booking writes made. */
  datatype Stage = Stopped(outcome: Outcome) | Booked(store: Store)

  /** Everything `createBooking` does up to and including the two booking
      writes. Missing fields stop it with 400 and no write; an unknown email
      gets its users row before the date is checked, and that row stays when
      the date turns out to be taken. */
  function Reserve(st: Store, req: BookingRequest): (g: Stage)
    ensures !Truthy(req.name) || !Given(req.email) || !Given(req.date) ==>
      g == Stopped(Outcome(Respond(400, Message(MissingRequiredFields)), st))
    ensures Truthy(req.name) && Given(req.email) && Given(req.date) ==>
      var e := req.email.value;
      var d := req.date.value;
      && (e !in st.users && !req.name.Str? ==> g == Stopped(Outcome(Respond(500, Message(ErrorCreatingBooking)), st)))
      && (e in st.users || req.name.Str? ==>
            var st' := if g.Stopped? then g.outcome.store else g.store;
            && e in st'.users
            && (e in st.users ==> st'.users == st.users && st'.nextUserId == st.nextUserId)
            && (e !in st.users ==>
                  && st'.users == st.users[e := User(st.nextUserId, Slug(req.name.text), Plain(""), false)]
                  && st'.nextUserId == st.nextUserId + 1)
            && st'.pending == st.pending && st'.verifications == st.verifications
            && st'.resets == st.resets
            && (g.Stopped? <==> !Open(st, d))
            && (g.Stopped? ==>
                  && g.outcome.reply == Respond(400, Message(DateNotAvailable))
                  && st'.bookings == st.bookings && st'.dates == st.dates
                  && st'.nextBookingId == st.nextBookingId)
            && (g.Booked? ==>
                  && st'.bookings == st.bookings[st.nextBookingId := Booking(st'.users[e].id, d, "pending")]
                  && st'.dates == st.dates[d := true] && !Open(st', d)
                  && st'.nextBookingId == st.nextBookingId + 1))
    ensures g.Stopped? ==> g.outcome.reply.Respond?
    ensures var st' := if g.Stopped? then g.outcome.store else g.store;
      (Wellformed(st) ==> Wellformed(st')) && Evolves(st, st')
  {
    EvolvesReflexive(st);
    if !Truthy(req.name) || !Given(req.email) || !Given(req.date) then
      Stopped(Outcome(Respond(400, Message(MissingRequiredFields)), st))
    else
      var e := req.email.value;
      var d := req.date.value;
      match EnsureUser(st, e, req.name)
      case None => Stopped(Outcome(Respond(500, Message(ErrorCreatingBooking)), st))
      case Some(st1) =>
        if !Open(st1, d) then Stopped(Outcome(Respond(400, Message(DateNotAvailable)), st1))
        else Booked(Book(st1, st1.users[e].id, d))
  }

  /** `createBooking`. The confirmation step calls a `sendEmail` this file
      never declares; the ReferenceError lands in the catch block, so every
      request that gets that far is answered 500 after both writes have been
      made. `Findings.CreateBookingIntended` is the handler with that call
      working. */
  function CreateBooking(st: Store, req: BookingRequest): (o: Outcome)
    ensures o.reply.Respond? && !Answers(o.reply, 201)
    ensures Reserve(st, req).Booked? <==> o.reply == Respond(500, Message(ErrorCreatingBooking)) && o.store != st
    ensures Wellformed(st) ==> Wellformed(o.store)
    ensures Evolves(st, o.store)
  {
    match Reserve(st, req)
    case Stopped(o) => o
    case Booked(st') => Outcome(Respond(500, Message(ErrorCreatingBooking)), st')
  }

  /** `respondToBooking`: `UPDATE bookings SET status = $1 WHERE id = $2`
      and the acknowledgement, whether or not a row had that id. */
  function RespondToBooking(st: Store, id: nat, response: string): (o: Outcome)
    ensures o.reply == Respond(200, Message(BookingResponseUpdated))
    ensures id in st.bookings ==>
      && id in o.store.bookings
      && o.store.bookings[id].status == response
      && o.store.bookings[id] == st.bookings[id].(status := o.store.bookings[id].status)
    ensures SameExcept(st.bookings, o.store.bookings, id)
    ensures id !in st.bookings ==> o.store == st
    ensures o.store == st.(bookings := o.store.bookings)
    ensures Wellformed(st) ==> Wellformed(o.store)
    ensures Evolves(st, o.store)
  {
    if id in st.bookings then
      var st' := st.(bookings := st.bookings[id := st.bookings[id].(status := response)]);
      assert Wellformed(st) ==> Wellformed(st') by {
        if Wellformed(st) {
          forall b | b in st'.bookings
            ensures exists e | e in st'.users :: st'.users[e].id == st'.bookings[b].userId
          {
            var e :| e in st.users && st.users[e].id == st.bookings[b].userId;
            assert st'.users[e].id == st'.bookings[b].userId;
          }
        }
      }
      Outcome(Respond(200, Message(BookingResponseUpdated)), st')
    else
      EvolvesReflexive(st);
      Outcome(Respond(200, Message(BookingResponseUpdated)), st)
  }

  /** Responding twice with the same answer is responding once. */
  lemma RespondIdempotent(st: Store, id: nat, response: string)
    ensures RespondToBooking(RespondToBooking(st, id, response).store, id, response).store
         == RespondToBooking(st, id, response).store
  {
  }
}

=== FILE: crypto.dfy ===
/** The cryptographic primitives the controllers call, kept symbolic.
    A SHA-256 fingerprint and a bcrypt hash are terms over their inputs; no
    handler ever inspects a term's arguments, so the store holds a term that
    stands for a digest, never the secret as a plain string. */
module Crypto {

  import opened Text

  /** `crypto.createHash("sha256").update(t).digest("hex")`, taken to be
      collision-free: two fingerprints are equal exactly when the tokens are. */
  datatype Digest = Sha256(token: string)

  /** The work factor passed to `bcrypt.hash(password, 10)`. */
  const BcryptCost: nat := 10

  /** The value of a `password` column: SQL NULL, a plain string that is not a
      bcrypt hash (such as the empty string written for booking guests), or a
      bcrypt hash of some secret under a random salt. */
  datatype Password = Null | Plain(text: string) | Bcrypt(secret: string, cost: nat, salt: nat)

  /** `bcrypt.hash(p, 10)`; the salt is the generator's random input. */
  function Hash(p: string, salt: nat): (h: Password)
    ensures h.Bcrypt? && h != Plain(p)
    ensures forall q :: Compare(q, h) == Match <==> q == p
  {
    Bcrypt(p, BcryptCost, salt)
  }

  datatype Comparison = Match | Mismatch | IllegalArguments

  /** `bcrypt.compare(p, stored)`: a NULL hash makes bcryptjs throw, a string
      that is not a bcrypt hash never matches, and a hash matches exactly the
      secret it was made from. */
  function Compare(p: string, stored: Password): (c: Comparison)
    ensures c == IllegalArguments <==> stored.Null?
    ensures stored.Plain? ==> c == Mismatch
  {
    match stored
    case Null => IllegalArguments
    case Plain(_) => Mismatch
    case Bcrypt(q, _, _) => if p == q then Match else Mismatch
  }

  /** A password matches its own hash and no other password does. */
  lemma HashMatchesOnlyItsSecret(p: string, q: string, salt: nat)
    ensures Compare(q, Hash(p, salt)) == Match <==> q == p
  {
  }

  /** `!pw || pw.trim() === ""`: NULL or a string of white space. */
  predicate Blank(pw: Password)
  {
    match pw
    case Null => true
    case Plain(t) => Trim(t) == []
    case Bcrypt(_, _, _) => false
  }
}

=== FILE: decimal.dfy ===
/** Decimal rendering of naturals, as `Number.prototype.toString` produces it
    for integers, and its inverse. */
module Decimal {

  predicate IsDigit(c: char)
  {
    '0' <= c <= '9'
  }

  predicate IsDigits(s: string)
  {
    forall k | 0 <= k < |s| :: IsDigit(s[k])
  }

  function DigitChar(d: nat): (c: char)
    requires d < 10
    ensures IsDigit(c)
  {
    ('0' as int + d) as char
  }

  /** The decimal numeral of `n`, without sign or leading zeros. */
  function Numeral(n: nat): (s: string)
    ensures |s| >= 1 && IsDigits(s)
    ensures s[0] == '0' <==> n == 0
    decreases n
  {
    if n < 10 then [DigitChar(n)] else Numeral(n / 10) + [DigitChar(n % 10)]
  }

  /** The number a string of digits denotes. */
  function Value(s: string): nat
    requires IsDigits(s)
  {
    if s == [] then 0 else 10 * Value(s[..|s| - 1]) + (s[|s| - 1] as int - '0' as int)
  }

  lemma {:induction false} ValueOfNumeral(n: nat)
    ensures Value(Numeral(n)) == n
    decreases n
  {
    if n >= 10 {
      var s := Numeral(n);
      ValueOfNumeral(n / 10);
      assert s[..|s| - 1] == Numeral(n / 10);
    }
  }

  function Pow10(k: nat): (p: nat)
    ensures p >= 1
  {
    if k == 0 then 1 else 10 * Pow10(k - 1)
  }

  /** A number with k+1 digits has a numeral of length k+1. */
  lemma {:induction false} NumeralLength(n: nat, k: nat)
    requires Pow10(k) <= n < Pow10(k + 1)
    ensures |Numeral(n)| == k + 1
    decreases k
  {
    if k > 0 {
      NumeralLength(n / 10, k - 1);
    }
  }
}

=== FILE: email_controller.dfy ===
/** backend/controllers/emailController.js: issuing verification records,
    the transactional email verification, and password-recovery issuance.
    The mail transport is reduced to its outcome, a `Delivery`. */
module EmailController {

  import opened Wrappers
  import opened Text
  import opened Decimal
  import opened Crypto
  import opened Http
  import opened Store

  /** `NOW() + INTERVAL '10 minutes'`, in seconds. */
  const TokenLifetime: nat := 600

  /** `/^\S+@\S+\.\S+$/`: no white space anywhere, and some `@` with at least
      one character before it, followed later by a `.` with at least one
      character between them and at least one after it. */
  predicate ValidEmail(s: string)
  {
    && NoSpace(s)
    && exists i, j | 0 < i && i + 1 < j && j + 1 < |s| :: s[i] == '@' && s[j] == '.'
  }

  /** Every string of the regular expression's shape is accepted. */
  lemma ValidEmailCompose(a: string, b: string, c: string)
    requires |a| > 0 && |b| > 0 && |c| > 0
    requires NoSpace(a) && NoSpace(b) && NoSpace(c)
    ensures ValidEmail(a + "@" + b + "." + c)
  {
    var s := a + "@" + b + "." + c;
    assert s[|a|] == '@';
    assert s[|a| + 1 + |b|] == '.';
    forall k | 0 <= k < |s| ensures !IsSpace(s[k]) {
      if k < |a| {
        assert s[k] == a[k];
      } else if k == |a| {
      } else if k < |a| + 1 + |b| {
        assert s[k] == b[k - |a| - 1];
      } else if k == |a| + 1 + |b| {
      } else {
        assert s[k] == c[k - |a| - |b| - 2];
      }
    }
  }

  /** Every accepted string has the regular expression's shape. */
  lemma ValidEmailParts(s: string) returns (a: string, b: string, c: string)
    requires ValidEmail(s)
    ensures s == a + "@" + b + "." + c
    ensures |a| > 0 && |b| > 0 && |c| > 0
    ensures NoSpace(a) && NoSpace(b) && NoSpace(c)
  {
    var i, j :| 0 < i && i + 1 < j && j + 1 < |s| && s[i] == '@' && s[j] == '.';
    a, b, c := s[..i], s[i + 1..j], s[j + 1..];
    assert s == s[..i] + [s[i]] + s[i + 1..j] + [s[j]] + s[j + 1..];
    assert forall k | 0 <= k < |b| :: b[k] == s[i + 1 + k];
    assert forall k | 0 <= k < |c| :: c[k] == s[j + 1 + k];
  }

  /** `Math.floor(100000 + Math.random() * 900000).toString()`, with the
      random draw taken from [0, 1) as an input. */
  function VerificationCode(draw: real): (code: string)
    requires 0.0 <= draw < 1.0
    ensures |code| == 6 && IsDigits(code) && code[0] != '0'
    ensures 100000 <= Value(code) <= 999999
    ensures Value(code) as real <= 100000.0 + draw * 900000.0 < Value(code) as real + 1.0
  {
    var n := (100000.0 + draw * 900000.0).Floor;
    assert 100000 <= n <= 999999;
    assert Pow10(5) == 100000 && Pow10(6) == 1000000;
    NumeralLength(n, 5);
    ValueOfNumeral(n);
    Numeral(n)
  }

  /** `sendVerificationEmail`: validates the address (without normalising
      it), upserts the verification row with the token's fingerprint, a fresh
      code and a ten-minute expiry, and reports success whatever the mail
      transport did. A truthy non-string email makes `match` throw outside
      the try block, and the handler itself sends no reply. */
  function SendVerificationEmail(st: Store, email: Field, now: int, token: string, draw: real, delivery: Delivery): (o: Outcome)
    requires 0.0 <= draw < 1.0
    ensures !Truthy(email) ==> o == Outcome(Respond(400, Message(InvalidEmailFormat)), st)
    ensures email.Other? && email.truthy ==> o == Outcome(Unanswered, st)
    ensures email.Str? && !ValidEmail(email.text) ==> o == Outcome(Respond(400, Message(InvalidEmailFormat)), st)
    ensures email.Str? && ValidEmail(email.text) ==>
      && o.reply == Respond(200, Message(VerificationSent))
      && email.text in o.store.verifications
      && o.store.verifications[email.text].token == Sha256(token)
      && o.store.verifications[email.text].expiresAt == now + TokenLifetime
      && o.store.verifications[email.text].code == VerificationCode(draw)
      && |o.store.verifications[email.text].code| == 6
      && IsDigits(o.store.verifications[email.text].code)
      && 100000 <= Value(o.store.verifications[email.text].code) <= 999999
      && SameExcept(st.verifications, o.store.verifications, email.text)
      && o.store == st.(verifications := o.store.verifications)
    ensures delivery == Failed && email.Str? && ValidEmail(email.text) ==> Answers(o.reply, 200)
    ensures Wellformed(st) ==> Wellformed(o.store)
    ensures Evolves(st, o.store)
  {
    if !Truthy(email) then Outcome(Respond(400, Message(InvalidEmailFormat)), st)
    else if !email.Str? then Outcome(Unanswered, st)
    else if !ValidEmail(email.text) then Outcome(Respond(400, Message(InvalidEmailFormat)), st)
    else
      var row := EmailVerification(Sha256(token), VerificationCode(draw), now + TokenLifetime);
      Outcome(Respond(200, Message(VerificationSent)),
              st.(verifications := st.verifications[email.text := row]))
  }

  /** `verifyEmail` request body; email and code only reach the query. */
  datatype VerifyRequest = VerifyRequest(email: Option<string>, token: Field, code: Option<string>)

  /** How the verification row is looked up. */
  datatype Lookup = ByToken(digest: Digest) | ByCode(code: string)

  /** An error thrown inside the transaction: one carrying `err.status`, or
      any other exception (a TypeError or ReferenceError). */
  datatype Thrown = Controlled(status: nat, message: Msg) | Uncaught

  /** The row for `email` matches the lookup and has not expired. */
  predicate RecordMatches(st: Store, email: string, key: Lookup, now: int)
  {
    && email in st.verifications
    && (match key
        case ByToken(d) => st.verifications[email].token == d
        case ByCode(c) => st.verifications[email].code == c)
    && st.verifications[email].expiresAt > now
  }

  /** The token branch hashes the token (a non-string makes `update` throw);
      otherwise the code is used. */
  function LookupOf(token: Field, code: Option<string>): Result<Lookup, Thrown>
    requires Truthy(token) || Given(code)
  {
    if Truthy(token) then
      if token.Str? then Success(ByToken(Sha256(token.text))) else Failure(Uncaught)
    else Success(ByCode(code.value))
  }

  /** Deletes the pending and verification rows of `email`. */
  function Consume(st: Store, email: string): (st': Store)
    ensures email !in st'.pending && email !in st'.verifications
    ensures SameExcept(st.pending, st'.pending, email)
    ensures SameExcept(st.verifications, st'.verifications, email)
    ensures st' == st.(pending := st'.pending, verifications := st'.verifications)
    ensures Wellformed(st) ==> Wellformed(st')
    ensures Evolves(st, st')
  {
    st.(pending := st.pending - {email}, verifications := st.verifications - {email})
  }

  /** What a committed verification leaves behind: the record of `email`
      matched the lookup `key` and had not expired; a pending row existed,
      with a usable password when it is promoted, and beside a user whose own
      password is not blank when merged. An existing account keeps its id and
      name, takes the pending row's password and is verified, and the reply
      says it was already verified; otherwise the pending row becomes a
      verified account under the next id, and the reply redirects to the
      login page. The pending and verification rows of `email` are gone, and
      nothing else changed. */
  ghost predicate Committed(st: Store, email: string, key: Lookup, now: int, o: Outcome)
  {
    && RecordMatches(st, email, key, now)
    && email in st.pending
    && (email !in st.users ==> !Blank(st.pending[email].password))
    && (email in st.users ==> !Blank(st.users[email].password))
    && o.reply == (if email in st.users then Respond(200, Message(AlreadyVerified))
                   else Respond(200, Redirect(EmailVerified, "/login")))
    && email in o.store.users
    && o.store.users[email] == (if email in st.users
                                then st.users[email].(password := st.pending[email].password, verified := true)
                                else User(st.nextUserId, st.pending[email].username, st.pending[email].password, true))
    && o.store.nextUserId == (if email in st.users then st.nextUserId else st.nextUserId + 1)
    && email !in o.store.pending && email !in o.store.verifications
    && SameExcept(st.users, o.store.users, email)
    && SameExcept(st.pending, o.store.pending, email)
    && SameExcept(st.verifications, o.store.verifications, email)
    && o.store.resets == st.resets && o.store.bookings == st.bookings && o.store.dates == st.dates
    && o.store.nextBookingId == st.nextBookingId
  }

  /** A committed verification keeps the database invariants. */
  lemma CommittedKeepsInvariants(st: Store, email: string, key: Lookup, now: int, o: Outcome)
    requires Committed(st, email, key, now, o)
    ensures Wellformed(st) ==> Wellformed(o.store)
    ensures Evolves(st, o.store)
  {
    if Wellformed(st) {
      OwnersKept(st, o.store);
    }
  }

  /** The callback of `db.transaction`: either the reply and the store to
      commit, or the error that rolls everything back. */
  function VerifyTransaction(st: Store, email: string, token: Field, code: Option<string>, now: int): (t: Result<Outcome, Thrown>)
    requires Truthy(token) || Given(code)
    ensures t.Success? ==> LookupOf(token, code).Success? && Committed(st, email, LookupOf(token, code).value, now, t.value)
    ensures Truthy(token) && !token.Str? ==> t == Failure(Uncaught)
  {
    var key :- LookupOf(token, code);
    if !RecordMatches(st, email, key, now) then
      Failure(Controlled(400, InvalidOrExpiredTokenOrCode))
    else if email in st.users then
      // the insert object reads pendingUser.email even when pendingUser is undefined
      if email !in st.pending then Failure(Uncaught)
      // a blank existing password reaches the undeclared pendingPasswordRow
      else if Blank(st.users[email].password) then Failure(Uncaught)
      else
        var merged := st.users[email].(password := st.pending[email].password, verified := true);
        Success(Outcome(Respond(200, Message(AlreadyVerified)),
                        Consume(st.(users := st.users[email := merged]), email)))
    else if email !in st.pending then
      Failure(Controlled(404, PendingUserNotFound))
    else if Blank(st.pending[email].password) then
      Failure(Controlled(500, PendingPasswordMissing))
    else
      var p := st.pending[email];
      var promoted := User(st.nextUserId, p.username, p.password, true);
      Success(Outcome(Respond(200, Redirect(EmailVerified, "/login")),
                      Consume(st.(users := st.users[email := promoted], nextUserId := st.nextUserId + 1), email)))
  }

  /** `verifyEmail`: commits the callback's store, or keeps the original
      store and reports the thrown error. */
  function VerifyEmail(st: Store, req: VerifyRequest, now: int): (o: Outcome)
    ensures o.reply.Respond?
    ensures !Answers(o.reply, 200) ==> o.store == st
    ensures (!Given(req.email) || (!Truthy(req.token) && !Given(req.code))) ==>
      o.reply == Respond(400, Message(MissingVerificationDetails))
    ensures Given(req.email) && Truthy(req.token) && !req.token.Str? ==>
      o == Outcome(Respond(500, Message(ErrorVerifyingEmail)), st)
    ensures Answers(o.reply, 200) ==>
      && Given(req.email) && (Truthy(req.token) || Given(req.code))
      && LookupOf(req.token, req.code).Success?
      && Committed(st, req.email.value, LookupOf(req.token, req.code).value, now, o)
    ensures Wellformed(st) ==> Wellformed(o.store)
    ensures Evolves(st, o.store)
  {
    if !Given(req.email) || (!Truthy(req.token) && !Given(req.code)) then
      Outcome(Respond(400, Message(MissingVerificationDetails)), st)
    else
      match VerifyTransaction(st, req.email.value, req.token, req.code, now)
      case Success(committed) =>
        CommittedKeepsInvariants(st, req.email.value, LookupOf(req.token, req.code).value, now, committed);
        committed
      case Failure(Controlled(status, message)) => Outcome(Respond(status, Message(message)), st)
      case Failure(Uncaught) => Outcome(Respond(500, Message(ErrorVerifyingEmail)), st)
  }

  /** Once a matching record is found, each failure of the transaction
      gets its own answer and leaves the store as it was: no account and no
      pending row is 404, a pending row without a usable password is 500 with
      its own message, and the two null dereferences of the existing-account
      branch are the generic 500. */
  lemma VerifyFailures(st: Store, req: VerifyRequest, now: int)
    requires Given(req.email) && (Truthy(req.token) || Given(req.code))
    requires LookupOf(req.token, req.code).Success?
    requires RecordMatches(st, req.email.value, LookupOf(req.token, req.code).value, now)
    ensures var e := req.email.value;
      var o := VerifyEmail(st, req, now);
      && (e !in st.users && e !in st.pending ==>
            o == Outcome(Respond(404, Message(PendingUserNotFound)), st))
      && (e !in st.users && e in st.pending && Blank(st.pending[e].password) ==>
            o == Outcome(Respond(500, Message(PendingPasswordMissing)), st))
      && (e in st.users && (e !in st.pending || Blank(st.users[e].password)) ==>
            o == Outcome(Respond(500, Message(ErrorVerifyingEmail)), st))
  {
    var e := req.email.value;
    var t := VerifyTransaction(st, e, req.token, req.code, now);
    if e !in st.users && e !in st.pending {
      assert t == Failure(Controlled(404, PendingUserNotFound));
    } else if e !in st.users && Blank(st.pending[e].password) {
      assert t == Failure(Controlled(500, PendingPasswordMissing));
    } else if e in st.users && (e !in st.pending || Blank(st.users[e].password)) {
      assert t == Failure(Uncaught);
    }
  }

  /** A request whose record does not match (wrong token or code, another
      email's record, or an expired one) is refused with 400 and changes
      nothing. */
  lemma VerifyMismatchRefused(st: Store, req: VerifyRequest, now: int)
    requires Given(req.email) && (Truthy(req.token) || Given(req.code))
    requires LookupOf(req.token, req.code).Success?
    requires !RecordMatches(st, req.email.value, LookupOf(req.token, req.code).value, now)
    ensures VerifyEmail(st, req, now) == Outcome(Respond(400, Message(InvalidOrExpiredTokenOrCode)), st)
  {
    assert VerifyTransaction(st, req.email.value, req.token, req.code, now)
        == Failure(Controlled(400, InvalidOrExpiredTokenOrCode));
  }

  /** What `sendPasswordRecoveryEmail` resolves to: `{ success: true }` or
      `{ error }`. */
  datatype RecoveryResult = Emailed | RecoveryError(message: Msg)

  datatype Recovery = Recovery(result: RecoveryResult, store: Store)

  /** `sendPasswordRecoveryEmail(email)`: for a well-formed address of an
      existing user, upserts the reset row with a fresh token's fingerprint
      and a ten-minute expiry, and passes on the transport's outcome. */
  function SendPasswordRecoveryEmail(st: Store, email: string, now: int, token: string, delivery: Delivery): (r: Recovery)
    ensures !ValidEmail(email) ==> r == Recovery(RecoveryError(InvalidEmailFormat), st)
    ensures ValidEmail(email) && email !in st.users ==> r == Recovery(RecoveryError(UserNotFound), st)
    ensures ValidEmail(email) && email in st.users ==>
      && email in r.store.resets
      && r.store.resets[email] == PasswordReset(Sha256(token), now + TokenLifetime)
      && SameExcept(st.resets, r.store.resets, email)
      && r.store == st.(resets := r.store.resets)
      && (r.result == Emailed <==> delivery == Sent)
      && (delivery == Failed ==> r.result == RecoveryError(EmailSendingFailed))
    ensures Wellformed(st) ==> Wellformed(r.store)
    ensures Evolves(st, r.store)
  {
    if email == [] || !ValidEmail(email) then Recovery(RecoveryError(InvalidEmailFormat), st)
    else if email !in st.users then Recovery(RecoveryError(UserNotFound), st)
    else
      var st' := st.(resets := st.resets[email := PasswordReset(Sha256(token), now + TokenLifetime)]);
      match delivery
      case Sent => Recovery(Emailed, st')
      case Failed => Recovery(RecoveryError(EmailSendingFailed), st')
  }
}

=== FILE: findings.dfy ===
/** Four places where the handlers as written do not do what their own
    comments, messages and control flow evidently aim at. For each, a lemma
    exhibits the behaviour of the handler as written, and a corrected handler
    carries the intended property. */
module Findings {

  import opened Wrappers
  import opened Text
  import opened Crypto
  import opened Http
  import opened Store
  import opened EmailController
  import opened AuthController
  import opened BookingController

  // ---------------------------------------------------------------------
  // verifyEmail, existing-user branch

  /** The password the existing account should end with: its own, unless
      that is blank and the pending row holds a usable one. */
  function SyncedPassword(st: Store, email: string): (p: Password)
    requires email in st.users
    ensures !Blank(st.users[email].password) ==> p == st.users[email].password
    ensures Blank(st.users[email].password) && email in st.pending && !Blank(st.pending[email].password) ==>
      p == st.pending[email].password
    ensures Blank(p) ==> Blank(st.users[email].password)
  {
    var own := st.users[email].password;
    if Blank(own) && email in st.pending && !Blank(st.pending[email].password)
    then st.pending[email].password
    else own
  }

  /** The existing-user branch as its log line describes it: make sure the
      user is verified, take the pending row's password only when the users
      row has none, and clean up; a missing pending row is no obstacle. */
  function MergeExisting(st: Store, email: string): (st': Store)
    requires email in st.users
    ensures email in st'.users && st'.users[email].verified
    ensures st'.users[email] == st.users[email].(password := SyncedPassword(st, email), verified := true)
    ensures email !in st'.pending && email !in st'.verifications
    ensures SameExcept(st.users, st'.users, email)
    ensures SameExcept(st.pending, st'.pending, email)
    ensures SameExcept(st.verifications, st'.verifications, email)
    ensures st' == st.(users := st'.users, pending := st'.pending, verifications := st'.verifications)
    ensures Wellformed(st) ==> Wellformed(st')
    ensures Evolves(st, st')
  {
    var user := st.users[email];
    Consume(UpdateUser(st, email, user.(password := SyncedPassword(st, email), verified := true)), email)
  }

  /** The verification transaction with the existing-user branch corrected;
      the other branches are those of `EmailController.VerifyTransaction`. */
  function VerifyTransactionIntended(st: Store, email: string, token: Field, code: Option<string>, now: int): (t: Result<Outcome, Thrown>)
    requires Truthy(token) || Given(code)
    ensures email in st.users && (token.Str? || !Truthy(token)) ==>
      (t.Success? <==> RecordMatches(st, email, LookupOf(token, code).value, now))
    ensures email in st.users && t.Success? ==>
      t.value == Outcome(Respond(200, Message(AlreadyVerified)), MergeExisting(st, email))
    ensures email !in st.users ==> t == VerifyTransaction(st, email, token, code, now)
  {
    var key :- LookupOf(token, code);
    if email in st.users && RecordMatches(st, email, key, now) then
      Success(Outcome(Respond(200, Message(AlreadyVerified)), MergeExisting(st, email)))
    else VerifyTransaction(st, email, token, code, now)
  }

  /** `verifyEmail` with the corrected existing-user branch. */
  function VerifyEmailIntended(st: Store, req: VerifyRequest, now: int): (o: Outcome)
    ensures o.reply.Respond?
    ensures !Answers(o.reply, 200) ==> o.store == st
    ensures (!Given(req.email) || (!Truthy(req.token) && !Given(req.code))) ==>
      o.reply == Respond(400, Message(MissingVerificationDetails))
    ensures Answers(o.reply, 200) ==>
      && req.email.Some? && req.email.value in o.store.users
      && o.store.users[req.email.value].verified
      && req.email.value !in o.store.verifications
    ensures Wellformed(st) ==> Wellformed(o.store)
    ensures Evolves(st, o.store)
  {
    if !Given(req.email) || (!Truthy(req.token) && !Given(req.code)) then
      EvolvesReflexive(st);
      Outcome(Respond(400, Message(MissingVerificationDetails)), st)
    else if req.email.value in st.users then
      match VerifyTransactionIntended(st, req.email.value, req.token, req.code, now)
      case Success(committed) => committed
      case Failure(Controlled(status, message)) =>
        EvolvesReflexive(st);
        Outcome(Respond(status, Message(message)), st)
      case Failure(Uncaught) =>
        EvolvesReflexive(st);
        Outcome(Respond(500, Message(ErrorVerifyingEmail)), st)
    else
      VerifyEmail(st, req, now)
  }

  /** The store `register` followed by `sendVerificationEmail` leaves: the
      account exists, holds the registration hash, and has a fresh matching
      verification row; the pending relation is untouched. */
  lemma RegisterThenIssue(st: Store, req: RegisterRequest, salt: nat, now: int, token: string,
                          draw: real, delivery: Delivery)
    requires 0.0 <= draw < 1.0
    requires Admits(st, req)
    requires ValidEmail(NormalizeEmail(req.email.text))
    ensures var e := NormalizeEmail(req.email.text);
      var st2 := SendVerificationEmail(Register(st, req, salt).store, Str(e), now, token, draw, delivery).store;
      && req.password.Str? && Trim(req.password.text) != [] && |e| > 0
      && e in st2.users && st2.users[e].password == Hash(req.password.text, salt)
      && st2.pending == st.pending
      && RecordMatches(st2, e, ByToken(Sha256(token)), now)
  {
    var e := NormalizeEmail(req.email.text);
    var st1 := Register(st, req, salt).store;
    assert e in st1.users && st1.users[e].password == Hash(req.password.text, salt);
    assert st1.pending == st.pending;
    var st2 := SendVerificationEmail(st1, Str(e), now, token, draw, delivery).store;
    assert st2.users == st1.users && st2.pending == st1.pending;
  }

  /** As written: verifying an account that has no pending row, with a
      matching record, aborts with 500 and changes nothing. */
  lemma VerifyWithoutPendingAborts(st: Store, e: string, token: string, now: int)
    requires e in st.users && e !in st.pending && e != []
    requires token != [] && RecordMatches(st, e, ByToken(Sha256(token)), now)
    ensures VerifyEmail(st, VerifyRequest(Some(e), Str(token), None), now)
         == Outcome(Respond(500, Message(ErrorVerifyingEmail)), st)
  {
    assert VerifyTransaction(st, e, Str(token), None, now) == Failure(Uncaught);
  }

  /** As written: an account made by `register` has no pending row, so
      verifying it with the token just issued dereferences the missing
      pending user and the whole verification aborts with 500. */
  lemma RegisteredUserCannotVerify(st: Store, req: RegisterRequest, salt: nat, now: int, token: string,
                                   draw: real, delivery: Delivery)
    requires 0.0 <= draw < 1.0 && token != []
    requires Admits(st, req)
    requires NormalizeEmail(req.email.text) !in st.pending
    requires ValidEmail(NormalizeEmail(req.email.text))
    ensures var e := NormalizeEmail(req.email.text);
      var st2 := SendVerificationEmail(Register(st, req, salt).store, Str(e), now, token, draw, delivery).store;
      VerifyEmail(st2, VerifyRequest(Some(e), Str(token), None), now)
        == Outcome(Respond(500, Message(ErrorVerifyingEmail)), st2)
  {
    var e := NormalizeEmail(req.email.text);
    RegisterThenIssue(st, req, salt, now, token, draw, delivery);
    var st2 := SendVerificationEmail(Register(st, req, salt).store, Str(e), now, token, draw, delivery).store;
    assert |e| > 0;
    VerifyWithoutPendingAborts(st2, e, token, now);
  }

  /** Corrected: verifying an account with a matching record succeeds and
      keeps the account's working password. */
  lemma VerifyExistingSucceeds(st: Store, e: string, token: string, now: int)
    requires e in st.users && e != [] && !Blank(st.users[e].password)
    requires token != [] && RecordMatches(st, e, ByToken(Sha256(token)), now)
    ensures var o := VerifyEmailIntended(st, VerifyRequest(Some(e), Str(token), None), now);
      && o.reply == Respond(200, Message(AlreadyVerified))
      && o.store.users[e].verified
      && o.store.users[e].password == st.users[e].password
  {
    assert VerifyTransactionIntended(st, e, Str(token), None, now).Success?;
  }

  /** Corrected: whoever could log in before verifying still can after. */
  lemma LoginAfterVerify(st: Store, e: string, token: string, now: int, password: Field)
    requires e in st.users && e != [] && NormalizeEmail(e) == e
    requires password.Str? && Trim(password.text) != []
    requires Compare(password.text, st.users[e].password) == Match
    requires token != [] && RecordMatches(st, e, ByToken(Sha256(token)), now)
    ensures var o := VerifyEmailIntended(st, VerifyRequest(Some(e), Str(token), None), now);
      Answers(Login(o.store, LoginRequest(Str(e), password)).reply, 200)
  {
    VerifyExistingSucceeds(st, e, token, now);
    var o := VerifyEmailIntended(st, VerifyRequest(Some(e), Str(token), None), now);
    LoginSucceeds(o.store, Str(e), password);
  }

  /** Corrected: the same sequence verifies the account, and the password
      chosen at registration still logs in. */
  lemma RegisteredUserVerifies(st: Store, req: RegisterRequest, salt: nat, now: int, token: string,
                               draw: real, delivery: Delivery)
    requires 0.0 <= draw < 1.0 && token != []
    requires Admits(st, req)
    requires ValidEmail(NormalizeEmail(req.email.text))
    ensures var e := NormalizeEmail(req.email.text);
      var st2 := SendVerificationEmail(Register(st, req, salt).store, Str(e), now, token, draw, delivery).store;
      var o := VerifyEmailIntended(st2, VerifyRequest(Some(e), Str(token), None), now);
      && o.reply == Respond(200, Message(AlreadyVerified))
      && o.store.users[e].verified
      && Answers(Login(o.store, LoginRequest(Str(e), req.password)).reply, 200)
  {
    var e := NormalizeEmail(req.email.text);
    RegisterThenIssue(st, req, salt, now, token, draw, delivery);
    var st2 := SendVerificationEmail(Register(st, req, salt).store, Str(e), now, token, draw, delivery).store;
    VerifyExistingSucceeds(st2, e, token, now);
    NormalizeEmailIdempotent(req.email.text);
    HashMatchesOnlyItsSecret(req.password.text, req.password.text, salt);
    LoginAfterVerify(st2, e, token, now, req.password);
  }

  /** Login answers 200 for a stored email whose hash matches a non-blank
      password. */
  lemma LoginSucceeds(st: Store, email: Field, password: Field)
    requires email.Str? && email.text != [] && password.Str? && Trim(password.text) != []
    requires NormalizeEmail(email.text) in st.users
    requires Compare(password.text, st.users[NormalizeEmail(email.text)].password) == Match
    ensures Answers(Login(st, LoginRequest(email, password)).reply, 200)
  {
  }

  /** As written: when a users row and a pending row both exist, the merge
      replaces the user's working password with the pending row's, so the
      old password stops logging in. */
  lemma MergeOverwritesPassword(st: Store, email: string, token: string, now: int, previous: string, replacement: string)
    requires email != []
    requires email in st.users && st.users[email].password == Hash(previous, 0)
    requires email in st.pending && st.pending[email].password == Hash(replacement, 1) && previous != replacement
    requires token != [] && RecordMatches(st, email, ByToken(Sha256(token)), now)
    ensures var o := VerifyEmail(st, VerifyRequest(Some(email), Str(token), None), now);
      && Answers(o.reply, 200)
      && Compare(previous, o.store.users[email].password) == Mismatch
  {
  }

  /** Corrected: a working password survives verification. */
  lemma MergeKeepsPassword(st: Store, email: string, token: string, now: int, previous: string, salt: nat)
    requires email != []
    requires email in st.users && st.users[email].password == Hash(previous, salt)
    requires token != [] && RecordMatches(st, email, ByToken(Sha256(token)), now)
    ensures var o := VerifyEmailIntended(st, VerifyRequest(Some(email), Str(token), None), now);
      && Answers(o.reply, 200)
      && Compare(previous, o.store.users[email].password) == Match
  {
  }

  // ---------------------------------------------------------------------
  // createBooking

  /** `createBooking` with the confirmation mail sent through the transport
      helper, whose failures come back as a value and are not thrown. */
  function CreateBookingIntended(st: Store, req: BookingRequest): (o: Outcome)
    ensures o.reply.Respond?
    ensures Answers(o.reply, 201) <==> Reserve(st, req).Booked?
    ensures Answers(o.reply, 201) ==>
      && o.reply == Respond(201, Message(BookingCreated))
      && req.email.Some? && req.date.Some?
      && st.nextBookingId in o.store.bookings
      && o.store.bookings[st.nextBookingId].date == req.date.value
      && o.store.bookings[st.nextBookingId].status == "pending"
      && !Open(o.store, req.date.value)
    ensures Wellformed(st) ==> Wellformed(o.store)
    ensures Evolves(st, o.store)
  {
    match Reserve(st, req)
    case Stopped(o) => o
    case Booked(st') => Outcome(Respond(201, Message(BookingCreated)), st')
  }

  /** As written: a booking on an open date is recorded and the date marked
      taken, yet the client is told the booking failed. */
  lemma BookingReportedAsFailed(st: Store, req: BookingRequest)
    requires Truthy(req.name) && Given(req.email) && Given(req.date)
    requires req.email.value in st.users || req.name.Str?
    requires Open(st, req.date.value)
    ensures var o := CreateBooking(st, req);
      && o.reply == Respond(500, Message(ErrorCreatingBooking))
      && st.nextBookingId in o.store.bookings
      && o.store.bookings[st.nextBookingId].date == req.date.value
      && !Open(o.store, req.date.value)
  {
  }

  /** Corrected: the same request is confirmed with 201. */
  lemma BookingConfirmed(st: Store, req: BookingRequest)
    requires Truthy(req.name) && Given(req.email) && Given(req.date)
    requires req.email.value in st.users || req.name.Str?
    requires Open(st, req.date.value)
    ensures CreateBookingIntended(st, req).reply == Respond(201, Message(BookingCreated))
  {
  }

  // ---------------------------------------------------------------------
  // forgotPassword

  /** `forgotPassword` with the missing-email check moved ahead of the
      normalisation. */
  function ForgotPasswordIntended(st: Store, email: Field, now: int, token: string, delivery: Delivery): (o: Outcome)
    ensures !Truthy(email) ==> o == Outcome(Respond(400, Message(EmailRequired)), st)
    ensures Truthy(email) ==> o == ForgotPassword(st, email, now, token, delivery)
    ensures Wellformed(st) ==> Wellformed(o.store)
    ensures Evolves(st, o.store)
  {
    if !Truthy(email) then
      EvolvesReflexive(st);
      Outcome(Respond(400, Message(EmailRequired)), st)
    else ForgotPassword(st, email, now, token, delivery)
  }

  /** As written: for a request body without an email the handler itself
      sends no reply, and never the 400 its own check is there to give. */
  lemma ForgotPasswordMissingEmailUnanswered(st: Store, now: int, token: string, delivery: Delivery)
    ensures ForgotPassword(st, Absent, now, token, delivery) == Outcome(Unanswered, st)
    ensures ForgotPassword(st, Absent, now, token, delivery).reply != Respond(400, Message(EmailRequired))
  {
  }

  /** Corrected: a missing, empty or falsy email is answered 400. */
  lemma ForgotPasswordMissingEmailAnswered(st: Store, email: Field, now: int, token: string, delivery: Delivery)
    requires email == Absent || email == Str([]) || email == Other(false)
    ensures ForgotPasswordIntended(st, email, now, token, delivery) == Outcome(Respond(400, Message(EmailRequired)), st)
  {
  }
}

=== FILE: http.dfy ===
/** Request values and responses as the Express handlers see them. */
module Http {

  import opened Wrappers

  /** A JSON body field on which the handler calls a string method: missing,
      a string, or some other JSON value (number, boolean, null, object) that
      is truthy or falsy. Calling `trim`, `match` or `update` on the last kind
      throws a TypeError. */
  datatype Field = Absent | Str(text: string) | Other(truthy: bool)

  /** JavaScript truthiness of a field. */
  predicate Truthy(f: Field)
  {
    match f
    case Absent => false
    case Str(t) => t != []
    case Other(b) => b
  }

  /** Truthiness of a field that is only ever passed to a query. */
  predicate Given(f: Option<string>)
  {
    f.Some? && f.value != []
  }

  /** Outcome of the mail transport: `{ success: true }` or `{ error }`. */
  datatype Delivery = Sent | Failed

  /** The claims `jwt.sign` receives: the users row with its password removed. */
  datatype Claims = Claims(id: nat, email: string, username: string, verified: bool)

  /** A signed session token, abstracted to what it carries. */
  datatype Session = Jwt(claims: Claims, expiresIn: nat)

  /** The columns `RETURNING id, email, username` hands back. */
  datatype Summary = Summary(id: nat, email: string, username: string)

  /** The fixed `message` strings of the handlers' JSON bodies. */
  datatype Msg =
    // authController.js
    | EmailAndUsernameRequired | InternalServerError | EmailAndUsernameExist | EmailExists
    | UsernameExists | RegisterFieldsRequired | InternalServerErrorCapitalised | InvalidPassword
    | PasswordTooShort | EmailOrUsernameExists | UserRegistered | CredentialsRequired
    | EmailNotFound | LoginSuccessful | EmailRequired | UserNotFound | MissingTokenOrPassword
    | InvalidOrExpiredToken | PasswordResetDone | ServerError
    // emailController.js
    | InvalidEmailFormat | VerificationSent | MissingVerificationDetails
    | InvalidOrExpiredTokenOrCode | PendingUserNotFound | PendingPasswordMissing
    | ErrorVerifyingEmail | AlreadyVerified | EmailVerified | EmailSendingFailed
    // bookingController.js
    | MissingRequiredFields | DateNotAvailable | ErrorCreatingBooking | BookingCreated
    | BookingResponseUpdated

  /** The text each message stands for. */
  function Text(m: Msg): string
  {
    match m
    case EmailAndUsernameRequired => "Email and username are required"
    case InternalServerError => "Internal server error"
    case EmailAndUsernameExist => "Email and Username already exist"
    case EmailExists => "Email already exists"
    case UsernameExists => "Username already exists"
    case RegisterFieldsRequired => "Email, username, and password are required"
    case InternalServerErrorCapitalised => "Internal Server Error"
    case InvalidPassword => "Invalid password"
    case PasswordTooShort => "Password must be at least 6 characters long"
    case EmailOrUsernameExists => "Email or Username already exists"
    case UserRegistered => "User registered successfully. Proceed to verification."
    case CredentialsRequired => "Please provide email and password"
    case EmailNotFound => "Email not found"
    case LoginSuccessful => "Login successful"
    case EmailRequired => "Email is required."
    case UserNotFound => "User not found."
    case MissingTokenOrPassword => "Missing token or password."
    case InvalidOrExpiredToken => "Invalid or expired token."
    case PasswordResetDone => "Password has been reset successfully."
    case ServerError => "Server error."
    case InvalidEmailFormat => "Invalid email format."
    case VerificationSent => "Verification link & code sent to email."
    case MissingVerificationDetails => "Missing verification details."
    case InvalidOrExpiredTokenOrCode => "Invalid or expired token/code."
    case PendingUserNotFound => "Pending user not found or already verified."
    case PendingPasswordMissing => "Pending user has no password saved."
    case ErrorVerifyingEmail => "Error verifying email."
    case AlreadyVerified => "Email already verified. You can log in now."
    case EmailVerified => "Email verified successfully!"
    case EmailSendingFailed => "Email sending failed"
    case MissingRequiredFields => "Missing required fields."
    case DateNotAvailable => "Selected date is not available."
    case ErrorCreatingBooking => "Error creating booking."
    case BookingCreated => "Booking created successfully."
    case BookingResponseUpdated => "Booking response updated!"
  }

  /** JSON bodies the handlers send. */
  datatype Body =
    | Message(msg: Msg)
    | Availability(taken: bool)
    | Registered(msg: Msg, user: Summary)
    | LoggedIn(msg: Msg, session: Session)
    | Redirect(msg: Msg, to: string)
    | Succeeded

  /** A response with a status code, or `Unanswered` when an exception
      escapes an async handler outside its try block: the handler itself sends
      no reply, and what the framework does next is not modelled. */
  datatype Reply = Respond(status: nat, body: Body) | Unanswered

  /** The reply has the given status code. */
  predicate Answers(r: Reply, code: nat)
  {
    r.Respond? && r.status == code
  }
}

=== FILE: lifecycle.dfy ===
/** Properties of the account and booking life cycle that relate several
    requests: what one handler leaves behind decides what the next one
    answers. */
module Lifecycle {

  import opened Wrappers
  import opened Text
  import opened Crypto
  import opened Http
  import opened Store
  import opened EmailController
  import opened AuthController
  import opened BookingController

  // ---------------------------------------------------------------------
  // Registration and sign-in

  /** A second registration with the same email or name is refused. */
  lemma RegisterTwiceRefused(st: Store, req: RegisterRequest, salt: nat, salt': nat)
    requires Admits(st, req)
    ensures var st1 := Register(st, req, salt).store;
      Register(st1, req, salt') == Outcome(Respond(400, Message(EmailOrUsernameExists)), st1)
  {
    var st1 := Register(st, req, salt).store;
    var e := NormalizeEmail(req.email.text);
    assert e in st1.users;
    assert Taken(st1, e, Trim(req.name.text));
  }

  /** After a registration, `check_user` reports the email and the name as
      taken by the same account. */
  lemma RegisterThenCheckUser(st: Store, req: RegisterRequest, salt: nat)
    requires Admits(st, req)
    ensures var replies := CheckUser(Register(st, req, salt).store, CheckUserRequest(req.email, req.name));
      && Respond(409, Message(EmailAndUsernameExist)) in replies
      && forall r | r in replies :: Answers(r, 409)
  {
    var st1 := Register(st, req, salt).store;
    var e := NormalizeEmail(req.email.text);
    var n := Trim(req.name.text);
    assert e in st1.users && st1.users[e].username == n;
    assert Taken(st1, e, n);
  }

  /** The credentials just registered log in, and the session names the new
      unverified account. */
  lemma LoginAfterRegister(st: Store, req: RegisterRequest, salt: nat)
    requires Admits(st, req)
    ensures var st1 := Register(st, req, salt).store;
      var e := NormalizeEmail(req.email.text);
      Login(st1, LoginRequest(req.email, req.password)).reply
        == Respond(200, LoggedIn(LoginSuccessful,
             Jwt(Claims(st.nextUserId, e, Trim(req.name.text), false), SessionLifetime)))
  {
    var st1 := Register(st, req, salt).store;
    var e := NormalizeEmail(req.email.text);
    assert st1.users[e] == User(st.nextUserId, Trim(req.name.text), Hash(req.password.text, salt), false);
    HashMatchesOnlyItsSecret(req.password.text, req.password.text, salt);
  }

  /** A wrong password for a registered account is 401, never 404. */
  lemma WrongPasswordAfterRegister(st: Store, req: RegisterRequest, salt: nat, guess: string)
    requires Admits(st, req)
    requires guess != req.password.text && Trim(guess) != []
    ensures Login(Register(st, req, salt).store, LoginRequest(req.email, Str(guess))).reply
         == Respond(401, Message(InvalidPassword))
  {
    var st1 := Register(st, req, salt).store;
    var e := NormalizeEmail(req.email.text);
    assert st1.users[e].password == Hash(req.password.text, salt);
    HashMatchesOnlyItsSecret(req.password.text, guess, salt);
  }

  // ---------------------------------------------------------------------
  // Email verification

  /** Issuing a second verification supersedes the first: the earlier token
      no longer matches the record, nor does the earlier code unless the new
      draw happened to produce the same one; the new token and code match
      until the new expiry. */
  lemma ReissueSupersedes(st: Store, email: string, now: int, now': int, t1: string, t2: string,
                          d1: real, d2: real, del1: Delivery, del2: Delivery, later: int)
    requires 0.0 <= d1 < 1.0 && 0.0 <= d2 < 1.0
    requires ValidEmail(email) && t1 != t2
    ensures var st1 := SendVerificationEmail(st, Str(email), now, t1, d1, del1).store;
      var st2 := SendVerificationEmail(st1, Str(email), now', t2, d2, del2).store;
      && !RecordMatches(st2, email, ByToken(Sha256(t1)), later)
      && (later < now' + TokenLifetime <==> RecordMatches(st2, email, ByToken(Sha256(t2)), later))
      && (VerificationCode(d1) != VerificationCode(d2) ==>
            !RecordMatches(st2, email, ByCode(VerificationCode(d1)), later))
      && (later < now' + TokenLifetime <==> RecordMatches(st2, email, ByCode(VerificationCode(d2)), later))
  {
    assert |email| > 0;
  }

  /** The code `sendVerificationEmail` mails promotes a pending sign-up when
      it is entered before the record expires. */
  lemma IssueThenVerifyByCode(st: Store, email: string, now: int, token: string, draw: real,
                              delivery: Delivery, later: int)
    requires 0.0 <= draw < 1.0 && ValidEmail(email)
    requires email !in st.users && email in st.pending && !Blank(st.pending[email].password)
    requires later < now + TokenLifetime
    ensures var st1 := SendVerificationEmail(st, Str(email), now, token, draw, delivery).store;
      var o := VerifyEmail(st1, VerifyRequest(Some(email), Absent, Some(VerificationCode(draw))), later);
      && o.reply == Respond(200, Redirect(EmailVerified, "/login"))
      && email in o.store.users && o.store.users[email].verified
      && o.store.users[email].password == st.pending[email].password
  {
    var st1 := SendVerificationEmail(st, Str(email), now, token, draw, delivery).store;
    assert |email| > 0;
    PromotePending(st1, email, VerificationCode(draw), later);
  }

  /** The token in the mailed link does the same. */
  lemma IssueThenVerifyByToken(st: Store, email: string, now: int, token: string, draw: real,
                               delivery: Delivery, later: int)
    requires 0.0 <= draw < 1.0 && ValidEmail(email) && token != []
    requires email !in st.users && email in st.pending && !Blank(st.pending[email].password)
    requires later < now + TokenLifetime
    ensures var st1 := SendVerificationEmail(st, Str(email), now, token, draw, delivery).store;
      var o := VerifyEmail(st1, VerifyRequest(Some(email), Str(token), None), later);
      && o.reply == Respond(200, Redirect(EmailVerified, "/login"))
      && email in o.store.users && o.store.users[email].verified
      && o.store.users[email].password == st.pending[email].password
  {
    var st1 := SendVerificationEmail(st, Str(email), now, token, draw, delivery).store;
    assert |email| > 0;
    assert RecordMatches(st1, email, ByToken(Sha256(token)), later);
    assert VerifyTransaction(st1, email, Str(token), None, later).Success?;
  }

  /** With a token in the request the code is never consulted. */
  lemma TokenTakesPrecedence(st: Store, email: Option<string>, token: string, c1: Option<string>, c2: Option<string>, now: int)
    requires token != []
    ensures VerifyEmail(st, VerifyRequest(email, Str(token), c1), now)
         == VerifyEmail(st, VerifyRequest(email, Str(token), c2), now)
  {
  }

  /** A record whose expiry is not strictly after now is refused with 400
      and nothing changes. */
  lemma ExpiredRecordRefused(st: Store, email: string, token: Field, code: Option<string>, now: int)
    requires email != [] && (Truthy(token) || Given(code))
    requires !(Truthy(token) && !token.Str?)
    requires email in st.verifications && st.verifications[email].expiresAt <= now
    ensures VerifyEmail(st, VerifyRequest(Some(email), token, code), now)
         == Outcome(Respond(400, Message(InvalidOrExpiredTokenOrCode)), st)
  {
  }

  /** Replaying a request that verified an account is refused with 400: its
      record was consumed. */
  lemma VerifyReplayRefused(st: Store, req: VerifyRequest, now: int, later: int)
    requires Answers(VerifyEmail(st, req, now).reply, 200)
    ensures var st1 := VerifyEmail(st, req, now).store;
      VerifyEmail(st1, req, later) == Outcome(Respond(400, Message(InvalidOrExpiredTokenOrCode)), st1)
  {
    var st1 := VerifyEmail(st, req, now).store;
    assert req.email.value !in st1.verifications;
    assert VerifyTransaction(st, req.email.value, req.token, req.code, now).Success?;
    assert LookupOf(req.token, req.code).Success?;
  }

  /** Promoting a pending row: the account appears verified with the pending
      password, and the client is sent to the login page. */
  lemma PromotePending(st: Store, email: string, code: string, now: int)
    requires email != [] && code != []
    requires email !in st.users && email in st.pending && !Blank(st.pending[email].password)
    requires RecordMatches(st, email, ByCode(code), now)
    ensures var o := VerifyEmail(st, VerifyRequest(Some(email), Absent, Some(code)), now);
      && o.reply == Respond(200, Redirect(EmailVerified, "/login"))
      && email in o.store.users && o.store.users[email].verified
      && o.store.users[email].password == st.pending[email].password
      && o.store.users[email].username == st.pending[email].username
  {
  }

  /** Merging into an existing account, as written: with a matching record,
      a pending row and a non-blank password on the account, the request
      commits whatever the pending row's password is (NULL included). The
      account keeps its id and name, takes the pending password, is verified,
      and the reply says it was already verified, with no redirect. */
  lemma MergePending(st: Store, req: VerifyRequest, now: int)
    requires Given(req.email) && (Truthy(req.token) || Given(req.code))
    requires LookupOf(req.token, req.code).Success?
    requires RecordMatches(st, req.email.value, LookupOf(req.token, req.code).value, now)
    requires req.email.value in st.users && !Blank(st.users[req.email.value].password)
    requires req.email.value in st.pending
    ensures var e := req.email.value;
      var o := VerifyEmail(st, req, now);
      && o.reply == Respond(200, Message(AlreadyVerified))
      && o.store.users[e] == st.users[e].(password := st.pending[e].password, verified := true)
      && Committed(st, e, LookupOf(req.token, req.code).value, now, o)
  {
    var e := req.email.value;
    assert VerifyTransaction(st, e, req.token, req.code, now).Success?;
  }

  // ---------------------------------------------------------------------
  // Password recovery

  /** No two reset rows carry the same fingerprint: tokens are 32 random
      bytes, and a collision is not modelled. */
  ghost predicate DistinctResetTokens(st: Store)
  {
    forall a, b | a in st.resets && b in st.resets && a != b :: st.resets[a].token != st.resets[b].token
  }

  /** `forgotPassword` for a valid, known address stores the fingerprint of
      the token it mails, valid for ten minutes. */
  lemma RecoveryIssued(st: Store, email: string, now: int, token: string, delivery: Delivery)
    requires NormalizeEmail(email) in st.users && ValidEmail(NormalizeEmail(email))
    requires email != []
    ensures var st1 := ForgotPassword(st, Str(email), now, token, delivery).store;
      && NormalizeEmail(email) in st1.resets
      && st1.resets[NormalizeEmail(email)] == PasswordReset(Sha256(token), now + TokenLifetime)
  {
  }

  /** The token `forgotPassword` mails selects the account's reset row
      exactly until ten minutes after it was issued. */
  lemma RecoveryTokenWindow(st: Store, email: string, now: int, token: string, delivery: Delivery, later: int)
    requires NormalizeEmail(email) in st.users && ValidEmail(NormalizeEmail(email))
    requires email != []
    ensures var st1 := ForgotPassword(st, Str(email), now, token, delivery).store;
      NormalizeEmail(email) in ResetCandidates(st1, Sha256(token), later) <==> later < now + TokenLifetime
  {
    RecoveryIssued(st, email, now, token, delivery);
  }

  /** The token `forgotPassword` mails resets the password before it expires. */
  lemma RecoveryTokenResets(st: Store, email: string, now: int, token: string, later: int,
                            password: string, salt: nat)
    requires token != [] && password != []
    requires NormalizeEmail(email) in st.users && ValidEmail(NormalizeEmail(email))
    requires email != [] && later < now + TokenLifetime
    ensures var st1 := ForgotPassword(st, Str(email), now, token, Sent).store;
      exists o | o in ResetPassword(st1, ResetRequest(Str(token), Str(password)), later, salt) ::
        Answers(o.reply, 200)
  {
    var e := NormalizeEmail(email);
    var st1 := ForgotPassword(st, Str(email), now, token, Sent).store;
    RecoveryIssued(st, email, now, token, Sent);
    ResetWithCandidate(st1, token, password, later, salt, e);
  }

  /** A token with an unexpired row admits a successful reset. */
  lemma ResetWithCandidate(st: Store, token: string, password: string, now: int, salt: nat, e: string)
    requires token != [] && password != []
    requires e in st.resets && st.resets[e].token == Sha256(token) && st.resets[e].expiresAt > now
    ensures exists o | o in ResetPassword(st, ResetRequest(Str(token), Str(password)), now, salt) ::
      Answers(o.reply, 200)
  {
    assert e in ResetCandidates(st, Sha256(token), now);
    var outcomes := ResetPassword(st, ResetRequest(Str(token), Str(password)), now, salt);
    assert exists o | o in outcomes :: Answers(o.reply, 200);
  }

  /** A newer recovery request supersedes the older token. */
  lemma RecoverySupersedes(st: Store, email: string, now: int, now': int, t1: string, t2: string,
                           del1: Delivery, del2: Delivery, later: int)
    requires email != [] && t1 != t2
    requires NormalizeEmail(email) in st.users && ValidEmail(NormalizeEmail(email))
    ensures var st1 := ForgotPassword(st, Str(email), now, t1, del1).store;
      var st2 := ForgotPassword(st1, Str(email), now', t2, del2).store;
      NormalizeEmail(email) !in ResetCandidates(st2, Sha256(t1), later)
  {
  }

  /** A reset token works once: replaying it is refused and changes
      nothing. */
  lemma ResetSingleUse(st: Store, req: ResetRequest, now: int, salt: nat, later: int, salt': nat, o: Outcome)
    requires DistinctResetTokens(st)
    requires o in ResetPassword(st, req, now, salt) && Answers(o.reply, 200)
    ensures ResetPassword(o.store, req, later, salt') == {Outcome(ResetRejected, o.store)}
  {
    var d := Sha256(req.token.text);
    var e :| e in ResetCandidates(st, d, now) && ResetEffect(st, o.store, e, req.password.text);
    assert ResetCandidates(o.store, d, later) == {};
  }

  /** After a reset with an unexpired token, whichever row the reset
      picked, the new password logs in and a different old one does not. */
  lemma LoginAfterReset(st: Store, token: string, password: string, now: int, salt: nat,
                        email: string, previous: string)
    requires token != [] && email != [] && Trim(password) != []
    requires previous != password && Trim(previous) != []
    requires NormalizeEmail(email) in st.users && NormalizeEmail(email) in st.resets
    requires st.resets[NormalizeEmail(email)].token == Sha256(token)
    requires st.resets[NormalizeEmail(email)].expiresAt > now
    requires DistinctResetTokens(st)
    ensures forall o | o in ResetPassword(st, ResetRequest(Str(token), Str(password)), now, salt) ::
      && Answers(Login(o.store, LoginRequest(Str(email), Str(password))).reply, 200)
      && Answers(Login(o.store, LoginRequest(Str(email), Str(previous))).reply, 401)
  {
    var e := NormalizeEmail(email);
    ResetHitsOnlyItsRow(st, token, password, now, salt, e);
    var outcomes := ResetPassword(st, ResetRequest(Str(token), Str(password)), now, salt);
    forall o | o in outcomes
      ensures Answers(Login(o.store, LoginRequest(Str(email), Str(password))).reply, 200)
      ensures Answers(Login(o.store, LoginRequest(Str(email), Str(previous))).reply, 401)
    {
      LoginAfterResetEffect(st, o.store, email, password, previous);
    }
  }

  /** With distinct fingerprints, every outcome of a reset with an unexpired
      token is the reset of that token's row. */
  lemma ResetHitsOnlyItsRow(st: Store, token: string, password: string, now: int, salt: nat, e: string)
    requires token != [] && password != []
    requires DistinctResetTokens(st)
    requires e in st.resets && st.resets[e].token == Sha256(token) && st.resets[e].expiresAt > now
    ensures forall o | o in ResetPassword(st, ResetRequest(Str(token), Str(password)), now, salt) ::
      o.reply == ResetDone && ResetEffect(st, o.store, e, password)
  {
    SingleCandidate(st, Sha256(token), now, e);
    var outcomes := ResetPassword(st, ResetRequest(Str(token), Str(password)), now, salt);
    forall o | o in outcomes
      ensures o.reply == ResetDone && ResetEffect(st, o.store, e, password)
    {
      assert Answers(o.reply, 200);
    }
  }

  /** With distinct fingerprints, an unexpired row is the only candidate
      for its token. */
  lemma SingleCandidate(st: Store, d: Digest, now: int, e: string)
    requires DistinctResetTokens(st)
    requires e in st.resets && st.resets[e].token == d && st.resets[e].expiresAt > now
    ensures ResetCandidates(st, d, now) == {e}
  {
    forall e' | e' in ResetCandidates(st, d, now)
      ensures e' == e
    {
      assert st.resets[e'].token == st.resets[e].token;
    }
  }

  /** Once the users row of the email holds the hash of the new password,
      the new password logs in and any other does not. */
  lemma LoginAfterResetEffect(st: Store, st': Store, email: string, password: string, previous: string)
    requires email != [] && Trim(password) != []
    requires previous != password && Trim(previous) != []
    requires NormalizeEmail(email) in st.users
    requires ResetEffect(st, st', NormalizeEmail(email), password)
    ensures Answers(Login(st', LoginRequest(Str(email), Str(password))).reply, 200)
    ensures Answers(Login(st', LoginRequest(Str(email), Str(previous))).reply, 401)
  {
    var e := NormalizeEmail(email);
    var p := st'.users[e].password;
    assert Compare(password, p) == Match;
    assert p.Bcrypt? && p.secret == password;
    assert Compare(previous, p) == Mismatch;
  }

  // ---------------------------------------------------------------------
  // Bookings

  /** An account whose stored password is not a bcrypt hash refuses every
      password with 401. */
  lemma LoginPlainRefused(st: Store, email: string, password: string)
    requires email != [] && Trim(password) != []
    requires NormalizeEmail(email) in st.users && st.users[NormalizeEmail(email)].password.Plain?
    ensures Login(st, LoginRequest(Str(email), Str(password))).reply == Respond(401, Message(InvalidPassword))
  {
  }

  /** An account created by a booking has the empty password, so no
      password logs in to it. */
  lemma BookingGuestCannotLogIn(st: Store, req: BookingRequest, password: string)
    requires Truthy(req.name) && Given(req.email) && Given(req.date)
    requires req.email.value !in st.users && req.name.Str?
    requires Trim(password) != [] && NormalizeEmail(req.email.value) == req.email.value
    ensures var st1 := CreateBooking(st, req).store;
      Login(st1, LoginRequest(Str(req.email.value), Str(password))).reply
        == Respond(401, Message(InvalidPassword))
  {
    var e := req.email.value;
    var g := Reserve(st, req);
    var st1 := if g.Stopped? then g.outcome.store else g.store;
    assert st1.users[e].password == Plain("");
    assert CreateBooking(st, req).store == st1;
    LoginPlainRefused(st1, e, password);
  }

  /** As written, an account a booking has just created cannot be verified
      right after that booking: its blank password reaches the undeclared
      variable and the verification aborts with 500, whatever the pending
      relation holds. */
  lemma BookingGuestCannotVerify(st: Store, req: BookingRequest, token: string, now: int)
    requires Truthy(req.name) && Given(req.email) && Given(req.date)
    requires req.email.value !in st.users && req.name.Str?
    requires token != []
    requires RecordMatches(CreateBooking(st, req).store, req.email.value, ByToken(Sha256(token)), now)
    ensures var st1 := CreateBooking(st, req).store;
      VerifyEmail(st1, VerifyRequest(req.email, Str(token), None), now)
        == Outcome(Respond(500, Message(ErrorVerifyingEmail)), st1)
  {
    var e := req.email.value;
    var g := Reserve(st, req);
    var st1 := if g.Stopped? then g.outcome.store else g.store;
    assert st1.users[e].password == Plain("");
    assert CreateBooking(st, req).store == st1;
    VerifyFailures(st1, VerifyRequest(req.email, Str(token), None), now);
  }

  /** A date is booked at most once: a second request for a date the first
      one booked is refused with 400, and no second booking is written. */
  lemma DateBookedOnce(st: Store, r1: BookingRequest, r2: BookingRequest)
    requires Truthy(r1.name) && Given(r1.email) && Given(r1.date)
    requires r1.email.value in st.users || r1.name.Str?
    requires Open(st, r1.date.value)
    requires r2.date == r1.date
    ensures var st1 := CreateBooking(st, r1).store;
      var o := CreateBooking(st1, r2);
      && o.reply.Respond? && o.reply.status in {400, 500}
      && o.store.bookings == st1.bookings
  {
  }
}

=== FILE: server.dfy ===
/** The CORS origin policy of the HTTP server: an allowlist read from the
    `CLIENT_URLS` environment variable and the origin predicate handed to the
    `cors` middleware. */
module Server {

  import opened Wrappers
  import opened Text

  /** Each piece trimmed, in order: `pieces.map(url => url.trim())`. */
  function TrimAll(pieces: seq<string>): (r: seq<string>)
    ensures |r| == |pieces|
    ensures forall i | 0 <= i < |r| :: |r[i]| <= |pieces[i]|
  {
    if pieces == [] then [] else [Trim(pieces[0])] + TrimAll(pieces[1..])
  }

  lemma {:induction false} TrimAllAt(pieces: seq<string>, i: nat)
    requires i < |pieces|
    ensures TrimAll(pieces)[i] == Trim(pieces[i])
    decreases i
  {
    if i > 0 {
      TrimAllAt(pieces[1..], i - 1);
    }
  }

  /** `allowedOrigins`: an unset or empty `CLIENT_URLS` gives the empty list;
      otherwise it is split on commas, keeping empty pieces, and each piece
      is trimmed. */
  function AllowedOrigins(clientUrls: Option<string>): (allowed: seq<string>)
    ensures clientUrls.None? || clientUrls.value == [] ==> allowed == []
    ensures clientUrls.Some? && clientUrls.value != [] ==>
      |allowed| == Count(clientUrls.value, ',') + 1
  {
    if clientUrls.None? || clientUrls.value == [] then []
    else TrimAll(Split(clientUrls.value, ','))
  }

  /** Every entry of the allowlist is free of surrounding white space and of
      commas, and is the trim of the matching comma-separated piece. */
  lemma AllowedOriginsEntries(urls: string, i: nat)
    requires urls != [] && i <= Count(urls, ',')
    ensures var entry := AllowedOrigins(Some(urls))[i];
      && entry == Trim(Split(urls, ',')[i])
      && ',' !in entry
      && (entry == [] || (!IsSpace(entry[0]) && !IsSpace(entry[|entry| - 1])))
  {
    var pieces := Split(urls, ',');
    TrimAllAt(pieces, i);
    SplitPiecesFree(urls, ',', i);
    TrimInfix(pieces[i]);
  }

  /** A trimmed string is an infix of the original. */
  lemma TrimInfix(s: string)
    ensures exists a, b | 0 <= a <= b <= |s| :: Trim(s) == s[a..b]
  {
    var t := TrimStart(s);
    var u := TrimEnd(t);
    TrimStartCuts(s);
    TrimEndCuts(t);
    var a := |s| - |t|;
    assert t == s[a..];
    assert u == t[..|u|] == s[a..a + |u|];
  }

  /** Without white space around the commas, the allowlist is exactly the
      comma-separated pieces, and joining it gives `CLIENT_URLS` back. */
  lemma AllowedOriginsRoundTrip(urls: string)
    requires urls != [] && NoSpace(urls)
    ensures AllowedOrigins(Some(urls)) == Split(urls, ',')
    ensures Join(AllowedOrigins(Some(urls)), ',') == urls
  {
    var pieces := Split(urls, ',');
    var allowed := AllowedOrigins(Some(urls));
    forall i | 0 <= i < |pieces|
      ensures allowed[i] == pieces[i]
    {
      TrimAllAt(pieces, i);
      SplitPiecesNoSpace(urls, ',', i);
      TrimNoSpace(pieces[i]);
    }
    JoinSplit(urls, ',');
  }

  /** The pieces of a string without white space have none either. */
  lemma {:induction false} SplitPiecesNoSpace(s: string, sep: char, i: nat)
    requires NoSpace(s) && i < |Split(s, sep)|
    ensures NoSpace(Split(s, sep)[i])
    decreases |s|
  {
    if s != [] {
      var rest := Split(s[1..], sep);
      if s[0] == sep {
        if i > 0 {
          SplitPiecesNoSpace(s[1..], sep, i - 1);
        }
      } else if i == 0 {
        SplitPiecesNoSpace(s[1..], sep, 0);
        assert Split(s, sep)[0] == [s[0]] + rest[0];
      } else {
        SplitPiecesNoSpace(s[1..], sep, i);
      }
    }
  }

  datatype Decision = Allow | Reject(message: string)

  /** `corsOptions.origin`: a request without an origin, or any origin when
      the allowlist is empty, is let through; otherwise the origin must equal
      an entry exactly, or the callback receives an error naming it. */
  function CorsOrigin(allowed: seq<string>, origin: Option<string>): Decision
  {
    if origin.None? || origin.value == [] then Allow
    else if |allowed| == 0 || origin.value in allowed then Allow
    else Reject("CORS policy: Origin " + origin.value + " not allowed")
  }

  /** With `CLIENT_URLS` unset or empty, every request passes. */
  lemma CorsUnconfigured(clientUrls: Option<string>, origin: Option<string>)
    requires clientUrls.None? || clientUrls.value == []
    ensures CorsOrigin(AllowedOrigins(clientUrls), origin) == Allow
  {
  }

  /** A string is among the trimmed pieces exactly when it is the trim of
      one of them. */
  lemma TrimAllMember(pieces: seq<string>, origin: string)
    ensures origin in TrimAll(pieces) <==> exists i | 0 <= i < |pieces| :: origin == Trim(pieces[i])
  {
    var allowed := TrimAll(pieces);
    if origin in allowed {
      var i :| 0 <= i < |allowed| && allowed[i] == origin;
      TrimAllAt(pieces, i);
    }
    if exists i | 0 <= i < |pieces| :: origin == Trim(pieces[i]) {
      var i :| 0 <= i < |pieces| && origin == Trim(pieces[i]);
      TrimAllAt(pieces, i);
      assert allowed[i] == origin;
    }
  }

  /** An origin is in the allowlist exactly when it is the trim of one of
      the comma-separated pieces. */
  lemma AllowedOriginsMember(urls: string, origin: string)
    requires urls != []
    ensures origin in AllowedOrigins(Some(urls)) <==>
      exists i | 0 <= i <= Count(urls, ',') :: origin == Trim(Split(urls, ',')[i])
  {
    var pieces := Split(urls, ',');
    assert AllowedOrigins(Some(urls)) == TrimAll(pieces);
    assert |pieces| == Count(urls, ',') + 1;
    TrimAllMember(pieces, origin);
    if exists i | 0 <= i < |pieces| :: origin == Trim(pieces[i]) {
      var i :| 0 <= i < |pieces| && origin == Trim(pieces[i]);
      assert 0 <= i <= Count(urls, ',') && origin == Trim(Split(urls, ',')[i]);
    }
    if exists i | 0 <= i <= Count(urls, ',') :: origin == Trim(Split(urls, ',')[i]) {
      var i :| 0 <= i <= Count(urls, ',') && origin == Trim(Split(urls, ',')[i]);
      assert 0 <= i < |pieces| && origin == Trim(pieces[i]);
    }
  }

  /** With a non-empty `CLIENT_URLS`, a request passes exactly when it has
      no origin or its origin is, verbatim, one of the comma-separated pieces
      of the variable with the surrounding white space trimmed. */
  lemma CorsConfigured(urls: string, origin: string)
    requires urls != []
    ensures CorsOrigin(AllowedOrigins(Some(urls)), Some(origin)).Allow? <==>
      origin == [] || exists i | 0 <= i <= Count(urls, ',') :: origin == Trim(Split(urls, ',')[i])
  {
    AllowedOriginsMember(urls, origin);
  }

  /** An origin with white space at either end never passes a non-empty
      allowlist read from `CLIENT_URLS`, since every entry is trimmed. */
  lemma PaddedOriginRejected(urls: string, origin: string)
    requires urls != [] && origin != []
    requires IsSpace(origin[0]) || IsSpace(origin[|origin| - 1])
    ensures CorsOrigin(AllowedOrigins(Some(urls)), Some(origin)).Reject?
  {
    var allowed := AllowedOrigins(Some(urls));
    if origin in allowed {
      var i :| 0 <= i < |allowed| && allowed[i] == origin;
      AllowedOriginsEntries(urls, i);
    }
  }
}

=== FILE: store.dfy ===
/** The database the controllers read and write, as one immutable value.
    The account relations are keyed by email, as their `ON CONFLICT (email)`
    clauses require; bookings are keyed by their serial id and availability
    rows by date. */
module Store {

  import opened Crypto
  import opened Http

  /** A `users` row; its email is the key it is stored under. */
  datatype User = User(id: nat, username: string, password: Password, verified: bool)

  /** A `pending_users` row. */
  datatype PendingUser = PendingUser(username: string, password: Password)

  /** An `email_verifications` row: token fingerprint, six-digit code, expiry. */
  datatype EmailVerification = EmailVerification(token: Digest, code: string, expiresAt: int)

  /** A `password_resets` row. */
  datatype PasswordReset = PasswordReset(token: Digest, expiresAt: int)

  /** A `bookings` row. */
  datatype Booking = Booking(userId: nat, date: string, status: string)

  datatype Store = Store(
    users: map<string, User>,
    pending: map<string, PendingUser>,
    verifications: map<string, EmailVerification>,
    resets: map<string, PasswordReset>,
    bookings: map<nat, Booking>,
    dates: map<string, bool>,   // available_dates: date -> booked
    nextUserId: nat,            // next value of the users id sequence
    nextBookingId: nat          // next value of the bookings id sequence
  )

  /** What a handler produces: the reply and the store it leaves behind. */
  datatype Outcome = Outcome(reply: Reply, store: Store)

  /** `m'` agrees with `m` on every key other than `k`. */
  ghost predicate SameExcept<K(!new), V>(m: map<K, V>, m': map<K, V>, k: K)
  {
    forall x | x != k :: (x in m <==> x in m') && (x in m ==> m'[x] == m[x])
  }

  /** Database invariants: user ids come from the sequence and are distinct,
      booking ids come from theirs, and every booking belongs to a user. */
  ghost predicate Wellformed(st: Store)
  {
    && (forall e | e in st.users :: st.users[e].id < st.nextUserId)
    && (forall a, b | a in st.users && b in st.users && a != b :: st.users[a].id != st.users[b].id)
    && (forall b | b in st.bookings :: b < st.nextBookingId)
    && (forall b | b in st.bookings :: exists e | e in st.users :: st.users[e].id == st.bookings[b].userId)
  }

  /** What no handler undoes: users rows are never deleted, their ids never
      change, `verified = true` is never cleared, and bookings are never
      deleted. */
  ghost predicate Evolves(st: Store, st': Store)
  {
    && (forall e | e in st.users :: e in st'.users && st'.users[e].id == st.users[e].id)
    && (forall e | e in st.users && st.users[e].verified :: st'.users[e].verified)
    && st.nextUserId <= st'.nextUserId
    && st.bookings.Keys <= st'.bookings.Keys
    && st.nextBookingId <= st'.nextBookingId
  }

  lemma EvolvesReflexive(st: Store)
    ensures Evolves(st, st)
  {
  }

  /** Inserts a users row under a fresh key with the next id of the sequence. */
  function InsertUser(st: Store, email: string, username: string, password: Password, verified: bool): (st': Store)
    requires email !in st.users
    ensures st'.users == st.users[email := User(st.nextUserId, username, password, verified)]
    ensures st' == st.(users := st'.users, nextUserId := st.nextUserId + 1)
    ensures Wellformed(st) ==> Wellformed(st')
    ensures Evolves(st, st')
  {
    var st' := st.(users := st.users[email := User(st.nextUserId, username, password, verified)], nextUserId := st.nextUserId + 1);
    assert Wellformed(st) ==> Wellformed(st') by {
      if Wellformed(st) {
        OwnersKept(st, st');
      }
    }
    st'
  }

  /** Rewrites an existing users row, keeping its id and never clearing
      `verified`. */
  function UpdateUser(st: Store, email: string, user: User): (st': Store)
    requires email in st.users && user.id == st.users[email].id
    requires st.users[email].verified ==> user.verified
    ensures st'.users == st.users[email := user]
    ensures st' == st.(users := st'.users)
    ensures Wellformed(st) ==> Wellformed(st')
    ensures Evolves(st, st')
  {
    var st' := st.(users := st.users[email := user]);
    assert Wellformed(st) ==> Wellformed(st') by {
      if Wellformed(st) {
        OwnersKept(st, st');
      }
    }
    st'
  }

  /** The booking-owner invariant survives any change that keeps user ids. */
  lemma OwnersKept(st: Store, st': Store)
    requires Wellformed(st)
    requires forall e | e in st.users :: e in st'.users && st'.users[e].id == st.users[e].id
    requires st'.bookings == st.bookings
    ensures forall b | b in st'.bookings :: exists e | e in st'.users :: st'.users[e].id == st'.bookings[b].userId
  {
    forall b | b in st'.bookings
      ensures exists e | e in st'.users :: st'.users[e].id == st'.bookings[b].userId
    {
      var e :| e in st.users && st.users[e].id == st.bookings[b].userId;
      assert e in st'.users;
    }
  }
}

=== FILE: text.dfy ===
/** String primitives of the JavaScript runtime that the controllers rely on:
    `trim`, `toLowerCase`, `length` (UTF-16 code units), the `\s` class and
    `split`. Strings are sequences of Unicode scalar values. */
module Text {

  /** The characters `String.prototype.trim` strips and the regular-expression
      class `\s` matches: ECMAScript WhiteSpace and LineTerminator. */
  predicate IsSpace(c: char)
  {
    || c == '\t' || c == '\n' || c == '\U{000B}' || c == '\U{000C}' || c == '\r'
    || c == ' ' || c == '\U{00A0}' || c == '\U{1680}'
    || ('\U{2000}' <= c <= '\U{200A}')
    || c == '\U{2028}' || c == '\U{2029}' || c == '\U{202F}' || c == '\U{205F}'
    || c == '\U{3000}' || c == '\U{FEFF}'
  }

  /** Every character matches `\S`. */
  predicate NoSpace(s: string)
  {
    forall k | 0 <= k < |s| :: !IsSpace(s[k])
  }

  /** Every character matches `\s`. */
  predicate AllSpace(s: string)
  {
    forall k | 0 <= k < |s| :: IsSpace(s[k])
  }

  function TrimStart(s: string): (r: string)
    ensures |r| <= |s|
    ensures r == [] || !IsSpace(r[0])
    decreases |s|
  {
    if |s| > 0 && IsSpace(s[0]) then TrimStart(s[1..]) else s
  }

  /** What `TrimStart` removes is a prefix of white space. */
  lemma {:induction false} TrimStartCuts(s: string)
    ensures TrimStart(s) == s[|s| - |TrimStart(s)|..]
    ensures AllSpace(s[..|s| - |TrimStart(s)|])
    decreases |s|
  {
    if |s| > 0 && IsSpace(s[0]) {
      TrimStartCuts(s[1..]);
      var n := |s| - |TrimStart(s)|;
      assert s[1..][..n - 1] == s[1..n];
    }
  }

  function TrimEnd(s: string): (r: string)
    ensures |r| <= |s|
    ensures r == [] || !IsSpace(r[|r| - 1])
    decreases |s|
  {
    if |s| > 0 && IsSpace(s[|s| - 1]) then TrimEnd(s[..|s| - 1]) else s
  }

  /** What `TrimEnd` removes is a suffix of white space. */
  lemma {:induction false} TrimEndCuts(s: string)
    ensures TrimEnd(s) == s[..|TrimEnd(s)|]
    ensures AllSpace(s[|TrimEnd(s)|..])
    decreases |s|
  {
    if |s| > 0 && IsSpace(s[|s| - 1]) {
      TrimEndCuts(s[..|s| - 1]);
      var n := |TrimEnd(s)|;
      assert s[..|s| - 1][n..] == s[n..|s| - 1];
    }
  }

  /** `s.trim()`: the longest infix of `s` that neither starts nor ends with
      white space, everything cut off on either side being white space. */
  function Trim(s: string): (r: string)
    ensures |r| <= |s|
    ensures r == [] || (!IsSpace(r[0]) && !IsSpace(r[|r| - 1]))
  {
    TrimEndCuts(TrimStart(s));
    TrimEnd(TrimStart(s))
  }

  /** Trimming leaves nothing exactly when the string is all white space. */
  lemma TrimEmpty(s: string)
    ensures Trim(s) == [] <==> AllSpace(s)
  {
    var t := TrimStart(s);
    var a := |s| - |t|;
    TrimStartCuts(s);
    TrimEndCuts(t);
    if Trim(s) == [] {
      assert t == [] by {
        if t != [] {
          assert false;
        }
      }
      assert s[..a] == s;
    }
    if AllSpace(s) {
      assert t == [] by {
        if t != [] {
          assert false;
        }
      }
    }
  }

  /** A string without white space is its own trim. */
  lemma TrimNoSpace(s: string)
    requires NoSpace(s)
    ensures Trim(s) == s
  {
  }

  lemma TrimIdempotent(s: string)
    ensures Trim(Trim(s)) == Trim(s)
  {
    var t := Trim(s);
    if t != [] {
      assert TrimStart(t) == t;
      assert TrimEnd(t) == t;
    }
  }

  /** ASCII case mapping of `toLowerCase`. */
  function LowerChar(c: char): (d: char)
    ensures IsSpace(d) <==> IsSpace(c)
    ensures !('A' <= d <= 'Z')
  {
    if 'A' <= c <= 'Z' then (c as int + 32) as char else c
  }

  function Lower(s: string): (r: string)
    ensures |r| == |s|
    ensures forall k | 0 <= k < |s| :: r[k] == LowerChar(s[k])
  {
    if s == [] then [] else [LowerChar(s[0])] + Lower(s[1..])
  }

  lemma LowerIdempotent(s: string)
    ensures Lower(Lower(s)) == Lower(s)
  {
  }

  /** Lower-casing neither adds nor removes white space. */
  lemma LowerKeepsSpace(s: string)
    ensures NoSpace(s) <==> NoSpace(Lower(s))
    ensures AllSpace(s) <==> AllSpace(Lower(s))
  {
    if !NoSpace(Lower(s)) {
      var k :| 0 <= k < |s| && IsSpace(Lower(s)[k]);
      assert IsSpace(s[k]);
    }
    if !AllSpace(Lower(s)) {
      var k :| 0 <= k < |s| && !IsSpace(Lower(s)[k]);
      assert !IsSpace(s[k]);
    }
  }

  /** `s.length`: characters outside the Basic Multilingual Plane occupy two
      UTF-16 code units. */
  function Utf16Length(s: string): (n: nat)
    ensures |s| <= n <= 2 * |s|
  {
    if s == [] then 0 else (if s[0] as int > 0xFFFF then 2 else 1) + Utf16Length(s[1..])
  }

  /** Number of occurrences of `c` in `s`. */
  function Count(s: string, c: char): nat
  {
    if s == [] then 0 else (if s[0] == c then 1 else 0) + Count(s[1..], c)
  }

  /** `s.split(sep)` for a one-character separator: empty pieces are kept,
      and the empty string splits into one empty piece. */
  function Split(s: string, sep: char): (parts: seq<string>)
    ensures |parts| == Count(s, sep) + 1
    decreases |s|
  {
    if s == [] then [""]
    else
      var rest := Split(s[1..], sep);
      if s[0] == sep then [""] + rest
      else [[s[0]] + rest[0]] + rest[1..]
  }

  /** No piece contains the separator. */
  lemma {:induction false} SplitPiecesFree(s: string, sep: char, i: nat)
    requires i < |Split(s, sep)|
    ensures sep !in Split(s, sep)[i]
    decreases |s|
  {
    if s != [] {
      var rest := Split(s[1..], sep);
      if s[0] == sep {
        if i > 0 {
          SplitPiecesFree(s[1..], sep, i - 1);
        }
      } else if i == 0 {
        SplitPiecesFree(s[1..], sep, 0);
        assert Split(s, sep)[0] == [s[0]] + rest[0];
      } else {
        SplitPiecesFree(s[1..], sep, i);
      }
    }
  }

  /** `parts.join(sep)`. */
  function Join(parts: seq<string>, sep: char): string
    requires |parts| >= 1
  {
    if |parts| == 1 then parts[0] else parts[0] + [sep] + Join(parts[1..], sep)
  }

  /** Splitting loses nothing: joining the pieces back gives the input. */
  lemma {:induction false} JoinSplit(s: string, sep: char)
    ensures Join(Split(s, sep), sep) == s
    decreases |s|
  {
    if s != [] {
      var rest := Split(s[1..], sep);
      JoinSplit(s[1..], sep);
      if s[0] == sep {
        assert ([""] + rest)[1..] == rest;
        assert s == [sep] + s[1..];
      } else {
        var parts := [[s[0]] + rest[0]] + rest[1..];
        if |rest| == 1 {
          assert s == [s[0]] + s[1..];
        } else {
          assert parts[1..] == rest[1..];
          assert Join(rest, sep) == rest[0] + [sep] + Join(rest[1..], sep);
          assert s == [s[0]] + s[1..];
        }
      }
    }
  }
}

=== FILE: wrappers.dfy ===
/** Option and Result, the latter usable with `:-` to model a thrown error
    that unwinds the rest of a handler. */
module Wrappers {

  datatype Option<+T> = None | Some(value: T)

  datatype Result<+R, +E> = Success(value: R) | Failure(error: E) {

    predicate IsFailure()
    {
      Failure?
    }

    function PropagateFailure<U>(): Result<U, E>
      requires Failure?
    {
      Failure(error)
    }

    function Extract(): R
      requires Success?
    {
      value
    }
  }
}
